=== FILE: README.md ===
# Account lifecycle of studygolang's `UserLogic`, in Dafny

This project models the account decisions of the studygolang community site
(`logic/user.go`): registration with its email-then-username uniqueness gate
and its four linked inserts, profile update with the `open` flag normalised and
a nine-column whitelist, the two-step avatar change, the uniqueness queries,
the three-step login (credential lookup, status gate, salted-hash check),
password change and reset, email activation, and the activity-weight
increment.

The store is an immutable record of four tables keyed by uid (`user`,
`user_login`, `user_role`, `user_active`) plus the auto-increment counter of
the user table. Every operation is a pure function from the store and its
inputs. The operations that may write return a `Reply`: the message or value
the Go function returns, its error, and the store afterwards. The read-only
queries `UserExists` and `EmailOrUsernameExists` return a plain `bool`, as in
Go. `IncrUserWeight` returns nothing in Go, so it returns just the store
afterwards.

Things outside the file are parameters:
- Storage failures: most operations take the set of storage calls (`Call`) that fail on this run, and every other call succeeds. `UserExists`, `EmailOrUsernameExists` and `IncrUserWeight` make a single storage call, so they take one flag that says whether it fails.
- External helpers: the form decoders, MD5, `GenMd5Passwd` and the activation signer are fields of `Externals`. The model treats them as functions it knows nothing about.
- Random avatar: the draw is the index `pick`.
- Role catalogue: the ordered catalogue is the sequence `roleIds`.

Three quirks of the code are kept, not fixed:
- Unmapped status (user.go:239): a status with no entry in the error map gives Login a nil credential and a nil error. `UpdatePasswd` then goes ahead without checking the current password.
- Inverted name (user.go:163-175): `EmailOrUsernameExists` is true exactly when nothing matched.
- Ignored error (user.go:230): Login ignores the error of its user-row read, so a failed read looks like a not-yet-activated account.

The role and activity inserts at user.go:89-91 and user.go:100-102 only log
their errors, which reads as best-effort. But `err` is a named result, and
line 100 assigns the activity insert's error to it.
So a failed activity insert is returned to the caller, even though the user,
credential and role rows are already stored. A failed role insert is
overwritten by that assignment, so it is swallowed. The model follows the code
(`CreateUser`, `ActiveInsertFailureSurfaces`, `RoleInsertFailureSwallowed`).

Files: `wrappers.dfy` (Option, Result), `model.dfy` (the records and status
codes), `form.dfy` (submitted form values), `store.dfy` (tables, single-row
query, insert and update primitives, the well-formedness invariant),
`user_logic.dfy` (the operations), `properties.dfy` (lemmas relating them),
`lifecycle.dfy` (invariants over runs of operations), `scenario.dfy` (an
end-to-end run).

## Model

| member | source | states |
|---|---|---|
| UserLogic.CreateUser | websites/code2/studygolang/src/logic/user.go:40-104 | Rejections come first: an email that already has a credential is rejected; otherwise a username that has one is rejected; the message is empty and the store is unchanged in both cases. Past the gate the reply is that of `Enroll`. Existing rows are never overwritten, new rows sit only under the new uid and carry it, and the store is either unchanged or the counter has moved past that uid. On success the user row is the decoded one with the new uid and the drawn avatar, the credential is the decoded one with the new uid, the activity row copies username, email and avatar with weight 2, the last catalogue role is stored unless its insert failed, and the counter is one past the new uid. |
| UserLogic.Conflict | websites/code2/studygolang/src/logic/user.go:43-50 | The email conflict is reported exactly when the email query finds a credential. The username conflict is reported exactly when the email query finds none and the username query finds one. Each conflict implies a stored credential with that email or username. |
| UserLogic.Enroll | websites/code2/studygolang/src/logic/user.go:52-103 | A failed user decode returns the decoder's error and its text; a failed user insert returns the storage error and the server-error message; both leave the store unchanged. Once the user row is stored under the counter's uid, with the drawn avatar, and the counter has advanced, the reply is that of `LinkRows`. On success, the four rows are linked under that uid as stated for `CreateUser`. |
| UserLogic.LinkRows | websites/code2/studygolang/src/logic/user.go:69-103 | The user table and the counter are untouched. A failed credential decode or insert is returned and writes nothing. After a stored credential (the decoded one, carrying the user's uid), the role is stored exactly when its insert does not fail, the activity row (username, email, avatar, weight 2) likewise, and the reply succeeds exactly when the activity insert does; a failed activity insert is a storage error with the earlier rows kept. |
| Tables.AddsAtCounterPreservesWellFormed | websites/code2/studygolang/src/logic/user.go:61-102 | Rows added only under the counter's uid, with the counter advanced past it, keep a store well-formed and lose no row. |
| UserLogic.UserExists | websites/code2/studygolang/src/logic/user.go:148-160 | True only when the query succeeds and finds a credential with that field value and a non-zero uid. When every stored uid is non-zero, it is true exactly when the query succeeds and such a credential exists. |
| UserLogic.EmailOrUsernameExists | websites/code2/studygolang/src/logic/user.go:163-175 | True only when the query succeeds. When every stored uid is non-zero, it is true exactly when no credential has that email or that username. So it is true when nothing exists. |
| UserLogic.NormalizeOpen | websites/code2/studygolang/src/logic/user.go:110-112 | A form whose first `open` value is "1" is returned unchanged. Otherwise the whole `open` list becomes the single value "0", as `form.Set` does. Every other form field is unchanged. |
| UserLogic.Update | websites/code2/studygolang/src/logic/user.go:107-134 | It succeeds exactly when the normalised form decodes and the write succeeds. Only user `uid`'s profile columns change, and they take the decoded values. All other rows, all other columns and all other tables stay the same. On error the store is unchanged. A failed decode returns the decoder's error with the generic service-error message. A failed write returns the storage error with the "try again later" message. Success carries the empty message. |
| UserLogic.ChangeAvatar | websites/code2/studygolang/src/logic/user.go:137-145 | The activity row is written only if the user write succeeded. The call succeeds exactly when both writes succeed. Only the avatar column of row `uid` changes. After a successful user write that row shows the new avatar, and after a full success the activity row shows it too. A failed activity write after a successful user write returns the storage error and leaves the activity table unchanged. |
| UserLogic.StatusError | websites/code2/studygolang/src/logic/user.go:231-239 | A status gets an error exactly when it is NoAudit, Refuse, Freeze or Outage. That error is never ErrUsername, ErrPasswd or the lookup failure. |
| UserLogic.Login | websites/code2/studygolang/src/logic/user.go:213-255 | The store is unchanged. A failed lookup gives the internal error, and only a failed lookup does. No matching credential gives ErrUsername. When the credential read has a non-zero uid and the status read is Audit, a hash match returns that credential and a mismatch gives ErrPasswd. A returned credential answers to the identifier, has a non-zero uid and an Audit user row, and matches MD5(password + passcode). ErrPasswd means an Audit account whose hash did not match. |
| UserLogic.UpdatePasswd | websites/code2/studygolang/src/logic/user.go:258-277 | If Login with the current password errs, that error is returned with the "wrong current password" message and the store is unchanged. The change succeeds exactly when Login does not err and the write works. The store changes only if Login did not err. On success, every credential with that username gets the new hash and passcode, nothing else changes, and the message is empty. If Login does not err but the write fails, the storage error is returned with the password-service-error message and the store is unchanged. |
| UserLogic.ResetPasswd | websites/code2/studygolang/src/logic/user.go:279-295 | It fails exactly when the write fails, and then it returns the storage error with the password-service-error message and the store is unchanged. On success, the message is empty and every credential with that email gets the new hash and passcode, and nothing else changes. |
| UserLogic.Activate | websites/code2/studygolang/src/logic/user.go:298-320 | A signature mismatch returns the signature error and leaves the store unchanged. Only a matching signature changes the store. On success, the returned user has the given email, a non-zero uid and status Audit, and only that user's row is rewritten. With a matching signature, when the lookup by email reads the zero row (no match, a failed read, or a first match whose uid is 0), it returns the bad-email error; when it reads a row with a non-zero uid and the write fails, it returns the storage error; the store is unchanged in both cases. With a matching signature, an existing email, no stored user row with uid 0, and no failure, it succeeds. |
| UserLogic.IncrUserWeight | websites/code2/studygolang/src/logic/user.go:323-328 | Every activity row matching the filter gains `weight`. Unless the write fails, in which case nothing changes. No other column, row or table changes. |
| UserLogicProofs.EmailOrUsernameExistsIsInverted | websites/code2/studygolang/src/logic/user.go:163-175 | When every stored credential has a non-zero uid and the queries work, the "exists" query is true exactly when both single-field existence queries are false. |
| UserLogicProofs.CreateUserConflicts | websites/code2/studygolang/src/logic/user.go:43-50 | When both queries work and every stored credential has a non-zero uid, registration returns the email conflict exactly when the email is taken. It returns the username conflict exactly when the email is free and the username is taken. |
| UserLogicProofs.RegisterThenLoginNeedsActivation | websites/code2/studygolang/src/logic/user.go:228-239 | Suppose a registration on a well-formed store succeeds and the decoded account has status NoAudit. Then, when Login's credential lookup and user-row read work, logging in under the new username gets "not activated", whatever password is given, as long as no older credential answers to that name. |
| UserLogicProofs.EarlyFailureWritesNothing | websites/code2/studygolang/src/logic/user.go:52-67 | Past the gate, a failed user decode returns the decoder's error and a failed user insert returns the storage error with the server-error message; in both cases the store is unchanged. |
| UserLogicProofs.LoginInsertFailureSurfaces | websites/code2/studygolang/src/logic/user.go:69-82 | On a well-formed store, with the email and username free by working queries and both decodes succeeding, a failed credential insert (the only failing call) is returned as a storage error with the server-error message; only the user row has been stored and the counter advanced. |
| UserLogicProofs.RoleWrittenWithoutFault | websites/code2/studygolang/src/logic/user.go:84-91 | On a well-formed store, a successful registration without a role-insert fault stores the last catalogue role under the new uid. |
| UserLogicProofs.RoleInsertFailureSwallowed | websites/code2/studygolang/src/logic/user.go:84-103 | On a well-formed store, with the email and username free by working queries and both decodes succeeding, a failed role insert (the only failing call) still gives a successful registration, with no role row added. |
| UserLogicProofs.ActiveInsertFailureSurfaces | websites/code2/studygolang/src/logic/user.go:93-103 | On a well-formed store, with the email and username free by working queries and both decodes succeeding, a failed activity insert (the only failing call) is returned as the error. The user, credential and role rows stay written anyway. |
| UserLogicProofs.CreateUserPreservesWellFormed | websites/code2/studygolang/src/logic/user.go:61-102 | Registration keeps every row under its own positive uid and below the counter. It loses no row and does not move the counter back. |
| UserLogicProofs.CreateUserKeepsCredentialsUnique | websites/code2/studygolang/src/logic/user.go:43-82 | Suppose both uniqueness queries work and the decoded credential carries the form's email and username. Then no two credentials share an email or a username after registration. |
| UserLogicProofs.EmailCheckFaultAdmitsDuplicate | websites/code2/studygolang/src/logic/user.go:152-158 | On a well-formed store where a credential already has the form's email, the username is free by a working query, both decodes succeed and the decoded credential carries the form's email: a failed email query counts as "not registered", so a second credential with the same email gets created. |
| UserLogicProofs.StatusErrorsDistinct | websites/code2/studygolang/src/logic/user.go:233-238 | Distinct mapped status codes give distinct errors. |
| UserLogicProofs.LoginErrUsernameIff | websites/code2/studygolang/src/logic/user.go:217-226 | With a working lookup and every stored credential carrying a non-zero uid, Login gives ErrUsername exactly when no credential has that username or email. |
| UserLogicProofs.LoginChecksPassword | websites/code2/studygolang/src/logic/user.go:242-254 | On a well-formed store, when Login's credential lookup and user-row read work, exactly one credential answers to the identifier and its account is Audit, Login returns that credential exactly when MD5(password + passcode) matches the stored hash, and gives ErrPasswd exactly when it does not. |
| UserLogicProofs.LoginStatusGateBeforePassword | websites/code2/studygolang/src/logic/user.go:228-247 | With a working lookup, once a credential with a non-zero uid is found and the status read is not Audit, the reply is that status's error. It is never ErrPasswd, and it is the same for every password. |
| UserLogicProofs.LoginUnmappedStatusReturnsNothing | websites/code2/studygolang/src/logic/user.go:233-239 | When the lookup and the user-row read work and the found credential's account has an unmapped status, Login returns no credential and no error. |
| UserLogicProofs.LoginLoadFailureReadsAsNotActivated | websites/code2/studygolang/src/logic/user.go:229-234 | With a working lookup, every stored credential carrying a non-zero uid, and some credential answering to the identifier, a failed user-row read makes Login report "not activated", whatever status is stored. |
| UserLogicProofs.UpdatePasswdThenLogin | websites/code2/studygolang/src/logic/user.go:258-276 | Round trip: suppose re-authentication returned a credential (not the nil reply of an unmapped status), the change succeeded, the credential found carries that username, and `GenMd5Passwd` of the new password and salt is MD5 of their concatenation. Then Login with the new password returns the same credential with its new hash and passcode. |
| UserLogicProofs.UpdatePasswdUnmappedStatusSkipsCheck | websites/code2/studygolang/src/logic/user.go:259-262 | When the credential found carries that username, its account has an unmapped status, and no storage call fails, the change succeeds and the credential gets the new passcode, whatever current password is given. |
| UserLogicProofs.UpdatePasswdByEmailWritesNothing | websites/code2/studygolang/src/logic/user.go:259-271 | An identifier that is no account's username changes nothing, even though re-authentication by email can succeed. |
| UserLogicProofs.ResetPasswdThenLogin | websites/code2/studygolang/src/logic/user.go:279-295 | Round trip: suppose the reset succeeded, Login's lookup and user-row read work, every stored credential has a non-zero uid, a credential answers to the email, the one Login reads carries that email and belongs to an Audit account, and `GenMd5Passwd` of the password and salt is MD5 of their concatenation. Then Login by email with the new password returns that credential with its new hash and passcode. |
| UserLogicProofs.ActivateChangesOnlyStatus | websites/code2/studygolang/src/logic/user.go:306-313 | On a well-formed store, success rewrites exactly the user row found by email, and only its status becomes Audit. |
| UserLogicProofs.ActivateThenLoginPassesGate | websites/code2/studygolang/src/logic/user.go:298-320 | On a well-formed store, after a successful activation, a Login whose credential lookup and user-row read both work and whose credential belongs to the activated account gets past the status gate: it ends in success or ErrPasswd. |
| UserLogicProofs.UpdateTreatsNonOneOpenAlike | websites/code2/studygolang/src/logic/user.go:110-115 | Two forms that differ only in an `open` value other than "1" give the same reply. |
| UserLogicProofs.UpdateIdempotent | websites/code2/studygolang/src/logic/user.go:114-123 | Repeating a profile update with the same form changes nothing more. |
| UserLogicProofs.ChangeAvatarKeepsRowsInSync | websites/code2/studygolang/src/logic/user.go:137-145 | When user `uid` has both a user row and an activity row, after success both show the same, new avatar. |
| UserLogicProofs.ChangeAvatarPartialCommit | websites/code2/studygolang/src/logic/user.go:139-144 | When user `uid` exists with a different avatar and only the activity write fails, that failure is reported, yet the first write stays. |
| UserLogicProofs.IncrUserWeightAdds | websites/code2/studygolang/src/logic/user.go:323-328 | Incrementing by a and then by b is the same as incrementing by a + b. |
| UserLogicProofs.UpdatePreservesWellFormed | websites/code2/studygolang/src/logic/user.go:122-123 | A profile update keeps the store well-formed, loses no row and keeps the counter. |
| UserLogicProofs.ChangeAvatarPreservesWellFormed | websites/code2/studygolang/src/logic/user.go:138-142 | An avatar change keeps the store well-formed, loses no row and keeps the counter. |
| UserLogicProofs.PasswdWritesPreserveWellFormed | websites/code2/studygolang/src/logic/user.go:264-292 | Password change and reset keep the store well-formed, lose no row and keep the counter. |
| UserLogicProofs.ActivatePreservesWellFormed | websites/code2/studygolang/src/logic/user.go:311-313 | Activation keeps the store well-formed, loses no row and keeps the counter. |
| UserLogicProofs.IncrUserWeightPreservesWellFormed | websites/code2/studygolang/src/logic/user.go:323-325 | The weight increment keeps the store well-formed, loses no row and keeps the counter. |
| UserLogicProofs.PasswdWritesKeepCredentialsUnique | websites/code2/studygolang/src/logic/user.go:264-292 | Password change and reset keep emails and usernames unique. |
| Lifecycle.ApplyPreservesWellFormed | websites/code2/studygolang/src/logic/user.go:40-328 | Every store-writing operation keeps the store well-formed. None of them loses a row or moves the uid counter back. |
| Lifecycle.Run | websites/code2/studygolang/src/logic/user.go:40-328 | A run is any sequence of operations applied in order. A run from a well-formed store ends well-formed, with every original row still present. |
| Lifecycle.ApplyKeepsWeights | websites/code2/studygolang/src/logic/user.go:40-320 | No modelled operation other than the increment changes the weight of an existing activity row. The detached +1 bonuses of Update, Login and the re-authentication inside UpdatePasswd are separate `Bump` steps in this model, so this is a statement about that split. |
| Lifecycle.WeightMovesOnlyByIncrement | websites/code2/studygolang/src/logic/user.go:323-328 | Starting from a well-formed store, over a whole run without increments, every existing activity weight stays the same. |
| Lifecycle.ApplyKeepsCredentialsUnique | websites/code2/studygolang/src/logic/user.go:43-82 | Suppose the operation, if it is a registration, has working uniqueness queries and a consistent decoded credential. Then emails and usernames stay unique after it. |
| Lifecycle.RunKeepsCredentialsUnique | websites/code2/studygolang/src/logic/user.go:43-82 | Start from a well-formed store with unique credentials. Suppose every registration in a run has working uniqueness queries, and its decoded credential carries the form's email and username. Then the run never creates two credentials with the same email or the same username. |
| Scenario.RegisterAlice | websites/code2/studygolang/src/logic/user.go:40-104 | Registering on an empty store gives exactly the four linked rows under uid 1, with activity weight 2. |
| Scenario.SecondRegistrationRejected | websites/code2/studygolang/src/logic/user.go:43-46 | A second registration with the same email is rejected and the store is unchanged. |
| Scenario.LoginBeforeActivation | websites/code2/studygolang/src/logic/user.go:228-239 | Before activation, the correct password gets "not activated". |
| Scenario.ActivateAlice | websites/code2/studygolang/src/logic/user.go:298-320 | A valid signature moves the new account to Audit. |
| Scenario.LoginAfterActivation | websites/code2/studygolang/src/logic/user.go:213-255 | After activation, the correct password returns the stored credential. |
| Scenario.RegisterActivateLogin | websites/code2/studygolang/src/logic/user.go:40-328 | The whole lifecycle ends with weight 3: the initial 2 plus the login bonus. |

## Left out

- SQL, xorm, row locking and transactions are not modelled. Storage is four maps, and storage failures are the fault set. The check-then-insert race between concurrent registrations is not modelled, because operations are sequential functions.
- The goroutines (user.go:131, user.go:249-252) are not part of the replies of Update, Login, or UpdatePasswd, which re-authenticates through Login (user.go:259) and so also triggers the login bonus and the login-time record. The +1 weight bonus is the separate step `IncrUserWeight`, and its ordering relative to other operations is not modelled.
- `RecordLoginTime` is not modelled, because it reads the wall clock. The credential record has no login-time field for the same reason.
- MD5, `GenMd5Passwd`, the activation signer and the schema decoder are fields of `Externals` with no definition. The round-trip lemmas assume the one fact they need: `GenMd5Passwd(p, salt) == MD5(p + salt)` for the password at hand. The claim that a fresh salt gives a different hash is not modelled, because it would need MD5 to be injective.
- The model package is not part of this model. It declares the records and the status codes, which are taken as 0 to 4 (NoAudit, Audit, Refuse, Freeze, Outage). Its insert hooks are not modelled either, so the decoded credential is stored as decoded.
- `rand.Intn` is the parameter `pick`, and its only constraint is being a valid index.
- Logging is not modelled. Neither are `FindUserInfos` and `FindOne`, beyond the by-email lookup inside `Activate`.
- Which row a single-row query reads is not specified by the database. The model reads the matching row with the least uid.
- Query filters such as `Where("email=?")` and `Where("username=? OR email=?")` compare strings exactly. The database's collation is not modelled; MySQL's default collations compare without regard to case and ignore trailing spaces. So the uniqueness, lookup and write-set statements are about exact string equality.
- Inserts fail only on an injected fault or a primary-key conflict. The auto-increment counter advances only on a successful user insert, and the uid comes from the counter, never from the form.
- UserLogic.CreateUser: requires a non-empty role catalogue. The code indexes its last element and would panic on an empty one.
- UserLogic.Activate: writes back the whole found row. The code writes only the row's non-zero columns. The two agree because the row was just read from the store.
- UserLogic.NormalizeOpen: `form.Set` at user.go:111 changes the caller's form in place. The model returns a new form, so the caller's form is not modelled as changed.
- The automatically maintained timestamp columns that updates touch are not modelled. Neither is Go's integer width for the weight. Form values keep every entry of a key; only `Form.Get` reads just the first one, as Go's `Values.Get` does.
- UserLogic.UserExists: on stores holding a credential whose uid is 0, the contract only bounds the answer. It is exact when every stored uid is non-zero.
- UserLogic.EmailOrUsernameExists: on stores holding a credential whose uid is 0, the contract only bounds the answer. It is exact when every stored uid is non-zero.

=== FILE: form.dfy ===
/** Submitted form values (`url.Values`): every key maps to a list of values. */
module Form {

  type Values = map<string, seq<string>>

  /** The first value under `key`, or "" when there is none. */
  function Get(form: Values, key: string): (v: string)
    ensures key !in form ==> v == ""
    ensures key in form && |form[key]| > 0 ==> v == form[key][0]
  {
    if key in form && |form[key]| > 0 then form[key][0] else ""
  }

  /** Replaces every value under `key` with the single value `v`. */
  function Set(form: Values, key: string, v: string): (r: Values)
    ensures Get(r, key) == v
    ensures key in r && r[key] == [v]
    ensures forall k :: k in form && k != key ==> k in r && r[k] == form[k]
    ensures r.Keys == form.Keys + {key}
  {
    form[key := [v]]
  }
}

=== FILE: lifecycle.dfy ===
/** Sequences of account operations: the store invariants hold after any
    run, rows are never lost, and an activity weight moves only through the
    weight increment. */
module Lifecycle {
  import opened Model
  import opened Tables
  import opened UserLogic
  import opened UserLogicProofs
  import Form

  /** One call into the account logic that may write the store, with its
      inputs and the storage calls that fail. Login writes nothing; its
      detached bonus is a `Bump`. */
  datatype Op =
    | Register(form: Form.Values, roleIds: seq<int>, pick: nat, faults: set<Call>)
    | EditProfile(uid: int, form: Form.Values, faults: set<Call>)
    | SetAvatar(uid: int, avatar: string, faults: set<Call>)
    | ChangePasswd(username: string, curPasswd: string, newPasswd: string, salt: string, faults: set<Call>)
    | ResetPassword(email: string, passwd: string, salt: string, faults: set<Call>)
    | ActivateAccount(email: string, uuid: string, timestamp: int, sign: string, faults: set<Call>)
    | Bump(where: ActiveField, weight: int, fails: bool)

  /** A registration needs a valid avatar draw and a non-empty role catalogue. */
  predicate Callable(op: Op) {
    op.Register? ==> op.pick < |DefaultAvatars| && |op.roleIds| > 0
  }

  /** The store after one operation. */
  function Apply(st: Store, ext: Externals, op: Op): (s: Store)
    requires Callable(op)
  {
    match op
    case Register(form, roleIds, pick, faults) => CreateUser(st, ext, form, roleIds, pick, faults).store
    case EditProfile(uid, form, faults) => Update(st, ext, uid, form, faults).store
    case SetAvatar(uid, avatar, faults) => ChangeAvatar(st, uid, avatar, faults).store
    case ChangePasswd(name, cur, newPw, salt, faults) => UpdatePasswd(st, ext, name, cur, newPw, salt, faults).store
    case ResetPassword(email, passwd, salt, faults) => ResetPasswd(st, ext, email, passwd, salt, faults).store
    case ActivateAccount(email, uuid, timestamp, sign, faults) =>
      Activate(st, ext, email, uuid, timestamp, sign, faults).store
    case Bump(where, weight, fails) => IncrUserWeight(st, where, weight, fails)
  }

  lemma ApplyPreservesWellFormed(st: Store, ext: Externals, op: Op)
    requires Callable(op) && WellFormed(st)
    ensures WellFormed(Apply(st, ext, op))
    ensures Grows(st, Apply(st, ext, op))
  {
    match op
    case Register(form, roleIds, pick, faults) =>
      assert Apply(st, ext, op) == CreateUser(st, ext, form, roleIds, pick, faults).store;
      CreateUserPreservesWellFormed(st, ext, form, roleIds, pick, faults);
    case EditProfile(uid, form, faults) =>
      UpdatePreservesWellFormed(st, ext, uid, form, faults);
    case SetAvatar(uid, avatar, faults) =>
      ChangeAvatarPreservesWellFormed(st, uid, avatar, faults);
    case ChangePasswd(name, cur, newPw, salt, faults) =>
      PasswdWritesPreserveWellFormed(st, ext, name, cur, newPw, salt, faults);
    case ResetPassword(email, passwd, salt, faults) =>
      PasswdWritesPreserveWellFormed(st, ext, email, passwd, passwd, salt, faults);
    case ActivateAccount(email, uuid, timestamp, sign, faults) =>
      ActivatePreservesWellFormed(st, ext, email, uuid, timestamp, sign, faults);
    case Bump(where, weight, fails) =>
      IncrUserWeightPreservesWellFormed(st, where, weight, fails);
  }

  /** The store after a sequence of operations, applied in order. On a
      well-formed store it stays well-formed and loses no row. */
  function Run(st: Store, ext: Externals, ops: seq<Op>): (r: Store)
    requires forall i :: 0 <= i < |ops| ==> Callable(ops[i])
    requires WellFormed(st)
    ensures WellFormed(r)
    ensures Grows(st, r)
    decreases |ops|
  {
    if ops == [] then st
    else
      ApplyPreservesWellFormed(st, ext, ops[0]);
      Run(Apply(st, ext, ops[0]), ext, ops[1..])
  }

  /** Every operation but the increment keeps the weight of every existing activity row. */
  lemma ApplyKeepsWeights(st: Store, ext: Externals, op: Op)
    requires Callable(op) && !op.Bump?
    ensures forall k :: k in st.actives ==>
              k in Apply(st, ext, op).actives && Apply(st, ext, op).actives[k].weight == st.actives[k].weight
  {
  }

  /** Without increments, no existing activity weight changes over a whole run. */
  lemma {:induction false} WeightMovesOnlyByIncrement(st: Store, ext: Externals, ops: seq<Op>)
    requires forall i :: 0 <= i < |ops| ==> Callable(ops[i]) && !ops[i].Bump?
    requires WellFormed(st)
    ensures forall k :: k in st.actives ==>
              k in Run(st, ext, ops).actives && Run(st, ext, ops).actives[k].weight == st.actives[k].weight
    decreases |ops|
  {
    if ops != [] {
      var next := Apply(st, ext, ops[0]);
      ApplyKeepsWeights(st, ext, ops[0]);
      ApplyPreservesWellFormed(st, ext, ops[0]);
      var rest := ops[1..];
      assert forall i :: 0 <= i < |rest| ==> rest[i] == ops[i + 1];
      WeightMovesOnlyByIncrement(next, ext, rest);
      var r := Run(next, ext, rest);
      assert Run(st, ext, ops) == r;
      forall k | k in st.actives
        ensures k in r.actives && r.actives[k].weight == st.actives[k].weight
      {
        assert k in next.actives && next.actives[k].weight == st.actives[k].weight;
      }
    }
  }

  /** A registration whose uniqueness queries work and whose decoded
      credential carries the form's email and username. */
  ghost predicate Checked(ext: Externals, op: Op) {
    op.Register? ==>
      && CheckEmail !in op.faults
      && CheckUsername !in op.faults
      && (ext.decodeLogin(op.form).Success? ==>
            && ext.decodeLogin(op.form).value.email == Form.Get(op.form, "email")
            && ext.decodeLogin(op.form).value.username == Form.Get(op.form, "username"))
  }

  lemma ApplyKeepsCredentialsUnique(st: Store, ext: Externals, op: Op)
    requires Callable(op) && Checked(ext, op)
    requires WellFormed(st) && UniqueCredentials(st)
    ensures UniqueCredentials(Apply(st, ext, op))
  {
    match op
    case Register(form, roleIds, pick, faults) =>
      CreateUserKeepsCredentialsUnique(st, ext, form, roleIds, pick, faults);
    case ChangePasswd(name, cur, newPw, salt, faults) =>
      PasswdWritesKeepCredentialsUnique(st, ext, name, cur, newPw, salt, faults);
    case ResetPassword(email, passwd, salt, faults) =>
      PasswdWritesKeepCredentialsUnique(st, ext, email, passwd, passwd, salt, faults);
    case _ =>
  }

  /** When every registration's uniqueness queries work, no run ever creates
      two credentials with the same email or the same username. */
  lemma {:induction false} RunKeepsCredentialsUnique(st: Store, ext: Externals, ops: seq<Op>)
    requires forall i :: 0 <= i < |ops| ==> Callable(ops[i]) && Checked(ext, ops[i])
    requires WellFormed(st) && UniqueCredentials(st)
    ensures UniqueCredentials(Run(st, ext, ops))
    decreases |ops|
  {
    if ops != [] {
      var next := Apply(st, ext, ops[0]);
      ApplyKeepsCredentialsUnique(st, ext, ops[0]);
      ApplyPreservesWellFormed(st, ext, ops[0]);
      RunKeepsCredentialsUnique(next, ext, ops[1..]);
      assert Run(st, ext, ops) == Run(next, ext, ops[1..]);
    }
  }
}

=== FILE: model.dfy ===
/** The records the account logic reads and writes: one datatype per table.
    The package that declares them in the system is not part of this model;
    only the fields the account logic touches are kept. */
module Model {

  /** Account status codes as stored in the `status` column. */
  const UserStatusNoAudit: int := 0
  const UserStatusAudit: int := 1
  const UserStatusRefuse: int := 2
  const UserStatusFreeze: int := 3
  const UserStatusOutage: int := 4

  /** The nine columns a profile update is allowed to write. */
  datatype Profile = Profile(
    name: string,
    open: int,
    city: string,
    company: string,
    github: string,
    weibo: string,
    website: string,
    monlog: string,
    introduce: string)

  /** A row of the user table. */
  datatype User = User(
    uid: int,
    username: string,
    email: string,
    avatar: string,
    status: int,
    profile: Profile)

  /** A row of the user_login table: the credential of one account. */
  datatype UserLogin = UserLogin(
    uid: int,
    username: string,
    email: string,
    passwd: string,
    passcode: string)

  /** A row of the user_active table: denormalised display fields and the activity weight. */
  datatype UserActive = UserActive(
    uid: int,
    username: string,
    email: string,
    avatar: string,
    weight: int)

  /** Go's zero values: what a query leaves in its target when no row was read. */
  const ZeroProfile := Profile("", 0, "", "", "", "", "", "", "")
  const ZeroUser := User(0, "", "", "", 0, ZeroProfile)
  const ZeroLogin := UserLogin(0, "", "", "", "")
}

=== FILE: properties.dfy ===
/** Properties relating the account operations to each other and to the
    store invariants: uniqueness, login ordering and its quirks, the password
    round trip, activation, profile normalisation and the weight increment. */
module UserLogicProofs {
  import opened Wrappers
  import opened Model
  import opened Tables
  import opened UserLogic
  import Form

  /** No two credentials share an email or a username. */
  ghost predicate UniqueCredentials(st: Store) {
    forall i, j :: i in st.logins && j in st.logins && i != j ==>
      st.logins[i].email != st.logins[j].email && st.logins[i].username != st.logins[j].username
  }

  /** Two credential tables that differ at most in hashes and passcodes. */
  ghost predicate SameIdentities(a: map<int, UserLogin>, b: map<int, UserLogin>) {
    && a.Keys == b.Keys
    && forall k :: k in a ==> a[k].uid == b[k].uid && a[k].username == b[k].username && a[k].email == b[k].email
  }

  // ---------------------------------------------------------------------------
  // Uniqueness queries

  /** The "exists" query answers true exactly when the two single-field
      queries both answer false: its name is the opposite of what it computes. */
  lemma EmailOrUsernameExistsIsInverted(st: Store, email: string, username: string)
    requires NonZeroLoginUids(st)
    ensures EmailOrUsernameExists(st, email, username, false) <==>
              !UserExists(st, ByEmail, email, false) && !UserExists(st, ByUsername, username, false)
  {
  }

  // ---------------------------------------------------------------------------
  // Registration

  /** Registration rejects exactly the emails, then exactly the usernames,
      that already have a credential. */
  lemma CreateUserConflicts(st: Store, ext: Externals, form: Form.Values, roleIds: seq<int>,
                            pick: nat, faults: set<Call>)
    requires pick < |DefaultAvatars| && |roleIds| > 0
    requires NonZeroLoginUids(st)
    requires CheckEmail !in faults && CheckUsername !in faults
    ensures var r := CreateUser(st, ext, form, roleIds, pick, faults);
            && (r.err == Some(EmailRegistered) <==>
                  exists k :: k in st.logins && st.logins[k].email == Form.Get(form, "email"))
            && (r.err == Some(UsernameTaken) <==>
                  && (forall k :: k in st.logins ==> st.logins[k].email != Form.Get(form, "email"))
                  && exists k :: k in st.logins && st.logins[k].username == Form.Get(form, "username"))
  {
    var email := Form.Get(form, "email");
    var username := Form.Get(form, "username");
    assert UserExists(st, ByEmail, email, false) <==> exists k :: k in st.logins && st.logins[k].email == email;
    assert UserExists(st, ByUsername, username, false) <==>
             exists k :: k in st.logins && st.logins[k].username == username;
  }

  /** A freshly registered NoAudit account cannot log in before activation,
      whatever password is given, as long as no older credential answers to
      its username. */
  lemma RegisterThenLoginNeedsActivation(st: Store, ext: Externals, form: Form.Values, roleIds: seq<int>,
                                         pick: nat, faults: set<Call>, name: string, passwd: string,
                                         loginFaults: set<Call>)
    requires pick < |DefaultAvatars| && |roleIds| > 0
    requires WellFormed(st)
    requires CreateUser(st, ext, form, roleIds, pick, faults).err.None?
    requires ext.decodeUser(form).value.status == UserStatusNoAudit
    requires ext.decodeLogin(form).value.username == name
    requires forall k :: k in st.logins ==> !Identifies(name, st.logins[k])
    requires QueryLogin !in loginFaults && LoadUser !in loginFaults
    ensures Login(CreateUser(st, ext, form, roleIds, pick, faults).store, ext, name, passwd, loginFaults).err
            == Some(NotActivated)
  {
    var s := CreateUser(st, ext, form, roleIds, pick, faults).store;
    var uid := st.nextUid;
    assert s.logins == st.logins[uid := ext.decodeLogin(form).value.(uid := uid)];
    assert Hits(s.logins, IdentifiedBy(name)) == {uid} by {
      forall k | k in s.logins
        ensures k in Hits(s.logins, IdentifiedBy(name)) <==> k == uid
      {
        assert IdentifiedBy(name)(s.logins[k]) == Identifies(name, s.logins[k]);
      }
    }
    assert LookupLogin(s, name) == s.logins[uid];
    assert s.users[uid] == ext.decodeUser(form).value.(uid := uid, avatar := DefaultAvatars[pick]);
  }

  /** A failed user decode or user insert is returned, and registration
      writes nothing. */
  lemma EarlyFailureWritesNothing(st: Store, ext: Externals, form: Form.Values, roleIds: seq<int>, pick: nat,
                                  faults: set<Call>)
    requires pick < |DefaultAvatars| && |roleIds| > 0
    requires !UserExists(st, ByEmail, Form.Get(form, "email"), CheckEmail in faults)
    requires !UserExists(st, ByUsername, Form.Get(form, "username"), CheckUsername in faults)
    requires ext.decodeUser(form).Failure? || InsertUser in faults
    ensures var r := CreateUser(st, ext, form, roleIds, pick, faults);
            && r.store == st
            && (ext.decodeUser(form).Failure? ==> r.err == Some(Decode(ext.decodeUser(form).error)))
            && (ext.decodeUser(form).Success? ==> r.err == Some(Storage) && r.value == ServerError)
  {
  }

  /** A failed credential insert is returned as the registration's error; the
      user row is already stored and the counter has moved. */
  lemma LoginInsertFailureSurfaces(st: Store, ext: Externals, form: Form.Values, roleIds: seq<int>, pick: nat)
    requires pick < |DefaultAvatars| && |roleIds| > 0
    requires WellFormed(st)
    requires !UserExists(st, ByEmail, Form.Get(form, "email"), false)
    requires !UserExists(st, ByUsername, Form.Get(form, "username"), false)
    requires ext.decodeUser(form).Success? && ext.decodeLogin(form).Success?
    ensures var r := CreateUser(st, ext, form, roleIds, pick, {InsertLogin});
            var uid := st.nextUid;
            && r.err == Some(Storage)
            && r.value == ServerError
            && r.store == st.(users := st.users[uid := ext.decodeUser(form).value.(uid := uid, avatar := DefaultAvatars[pick])],
                              nextUid := uid + 1)
  {
  }

  /** Without a role-insert fault, a successful registration stores the last
      (lowest) role of the catalogue for the new account. */
  lemma RoleWrittenWithoutFault(st: Store, ext: Externals, form: Form.Values, roleIds: seq<int>, pick: nat,
                                faults: set<Call>)
    requires pick < |DefaultAvatars| && |roleIds| > 0
    requires WellFormed(st)
    requires InsertRole !in faults
    requires CreateUser(st, ext, form, roleIds, pick, faults).err.None?
    ensures CreateUser(st, ext, form, roleIds, pick, faults).store.roles == st.roles[st.nextUid := roleIds[|roleIds| - 1]]
  {
  }

  /** A failed role insert is swallowed: registration still reports success. */
  lemma RoleInsertFailureSwallowed(st: Store, ext: Externals, form: Form.Values, roleIds: seq<int>, pick: nat)
    requires pick < |DefaultAvatars| && |roleIds| > 0
    requires WellFormed(st)
    requires !UserExists(st, ByEmail, Form.Get(form, "email"), false)
    requires !UserExists(st, ByUsername, Form.Get(form, "username"), false)
    requires ext.decodeUser(form).Success? && ext.decodeLogin(form).Success?
    ensures var r := CreateUser(st, ext, form, roleIds, pick, {InsertRole});
            && r.err.None?
            && r.store.roles == st.roles
            && st.nextUid in r.store.users && st.nextUid in r.store.logins && st.nextUid in r.store.actives
  {
  }

  /** A failed activity insert is returned as the registration's error,
      although the user, credential and role rows are already stored. */
  lemma ActiveInsertFailureSurfaces(st: Store, ext: Externals, form: Form.Values, roleIds: seq<int>, pick: nat)
    requires pick < |DefaultAvatars| && |roleIds| > 0
    requires WellFormed(st)
    requires !UserExists(st, ByEmail, Form.Get(form, "email"), false)
    requires !UserExists(st, ByUsername, Form.Get(form, "username"), false)
    requires ext.decodeUser(form).Success? && ext.decodeLogin(form).Success?
    ensures var r := CreateUser(st, ext, form, roleIds, pick, {InsertActive});
            && r.err == Some(Storage)
            && r.value == NoMsg
            && st.nextUid in r.store.users && st.nextUid in r.store.logins
            && r.store.roles == st.roles[st.nextUid := roleIds[|roleIds| - 1]]
            && r.store.actives == st.actives
  {
  }

  /** Registration keeps every row under its own uid and below the counter. */
  lemma CreateUserPreservesWellFormed(st: Store, ext: Externals, form: Form.Values, roleIds: seq<int>,
                                      pick: nat, faults: set<Call>)
    requires pick < |DefaultAvatars| && |roleIds| > 0
    requires WellFormed(st)
    ensures WellFormed(CreateUser(st, ext, form, roleIds, pick, faults).store)
    ensures Grows(st, CreateUser(st, ext, form, roleIds, pick, faults).store)
  {
    var s := CreateUser(st, ext, form, roleIds, pick, faults).store;
    if s != st {
      AddsAtCounterPreservesWellFormed(st, s);
    }
  }

  /** When the decoded credential carries the form's email and username and
      both uniqueness queries succeed, registration keeps credentials unique. */
  lemma CreateUserKeepsCredentialsUnique(st: Store, ext: Externals, form: Form.Values, roleIds: seq<int>,
                                         pick: nat, faults: set<Call>)
    requires pick < |DefaultAvatars| && |roleIds| > 0
    requires WellFormed(st) && UniqueCredentials(st)
    requires CheckEmail !in faults && CheckUsername !in faults
    requires ext.decodeLogin(form).Success? ==>
               && ext.decodeLogin(form).value.email == Form.Get(form, "email")
               && ext.decodeLogin(form).value.username == Form.Get(form, "username")
    ensures UniqueCredentials(CreateUser(st, ext, form, roleIds, pick, faults).store)
  {
    var r := CreateUser(st, ext, form, roleIds, pick, faults);
    var uid := st.nextUid;
    if r.store.logins != st.logins {
      var email := Form.Get(form, "email");
      var username := Form.Get(form, "username");
      assert !UserExists(st, ByEmail, email, false);
      assert !UserExists(st, ByUsername, username, false);
      assert uid !in st.logins;
      assert r.store.logins == st.logins[uid := ext.decodeLogin(form).value.(uid := uid)];
      forall i, j | i in r.store.logins && j in r.store.logins && i != j
        ensures r.store.logins[i].email != r.store.logins[j].email
        ensures r.store.logins[i].username != r.store.logins[j].username
      {
        if i == uid {
          assert j in st.logins;
        } else if j == uid {
          assert i in st.logins;
        }
      }
    }
  }

  /** A failed email query reads as "not registered", so a second account
      with an already registered email can be created. */
  lemma EmailCheckFaultAdmitsDuplicate(st: Store, ext: Externals, form: Form.Values, roleIds: seq<int>, pick: nat)
    requires pick < |DefaultAvatars| && |roleIds| > 0
    requires WellFormed(st)
    requires exists k :: k in st.logins && st.logins[k].email == Form.Get(form, "email")
    requires !UserExists(st, ByUsername, Form.Get(form, "username"), false)
    requires ext.decodeUser(form).Success? && ext.decodeLogin(form).Success?
    requires ext.decodeLogin(form).value.email == Form.Get(form, "email")
    ensures var r := CreateUser(st, ext, form, roleIds, pick, {CheckEmail});
            r.err.None? && !UniqueCredentials(r.store)
  {
    var r := CreateUser(st, ext, form, roleIds, pick, {CheckEmail});
    var k :| k in st.logins && st.logins[k].email == Form.Get(form, "email");
    assert r.store.logins[st.nextUid].email == r.store.logins[k].email;
  }

  // ---------------------------------------------------------------------------
  // Login

  /** Distinct status codes map to distinct errors. */
  lemma StatusErrorsDistinct(s1: int, s2: int)
    requires StatusError(s1).Some? && StatusError(s1) == StatusError(s2)
    ensures s1 == s2
  {
  }

  /** Without a failed lookup, Login says ErrUsername exactly when no
      credential answers to the identifier. */
  lemma LoginErrUsernameIff(st: Store, ext: Externals, username: string, passwd: string, faults: set<Call>)
    requires NonZeroLoginUids(st)
    requires QueryLogin !in faults
    ensures Login(st, ext, username, passwd, faults).err == Some(ErrUsername) <==>
              forall k :: k in st.logins ==> !Identifies(username, st.logins[k])
  {
  }

  /** Once the only credential answering to the identifier belongs to an
      Audit account, the salted hash alone decides: a match returns that
      credential, a mismatch gives ErrPasswd. */
  lemma LoginChecksPassword(st: Store, ext: Externals, ident: string, passwd: string, faults: set<Call>, k: int)
    requires WellFormed(st)
    requires QueryLogin !in faults && LoadUser !in faults
    requires k in st.logins && Identifies(ident, st.logins[k])
    requires forall j :: j in st.logins && j != k ==> !Identifies(ident, st.logins[j])
    requires k in st.users && st.users[k].status == UserStatusAudit
    ensures var r := Login(st, ext, ident, passwd, faults);
            var l := st.logins[k];
            && (r.value == Some(l) <==> ext.md5(passwd + l.passcode) == l.passwd)
            && (r.err == Some(ErrPasswd) <==> ext.md5(passwd + l.passcode) != l.passwd)
  {
    assert Hits(st.logins, IdentifiedBy(ident)) == {k} by {
      forall j | j in st.logins
        ensures j in Hits(st.logins, IdentifiedBy(ident)) <==> j == k
      {
        assert IdentifiedBy(ident)(st.logins[j]) == Identifies(ident, st.logins[j]);
      }
    }
    assert LookupLogin(st, ident) == st.logins[k];
  }

  /** The status gate comes before the password: once the credential is found
      and the status read is not Audit, the reply is the status error whatever
      password is given. */
  lemma LoginStatusGateBeforePassword(st: Store, ext: Externals, username: string, p1: string, p2: string,
                                      faults: set<Call>)
    requires QueryLogin !in faults
    requires LookupLogin(st, username).uid != 0
    requires LoadedStatus(st, LookupLogin(st, username).uid, LoadUser in faults) != UserStatusAudit
    ensures Login(st, ext, username, p1, faults) == Login(st, ext, username, p2, faults)
    ensures Login(st, ext, username, p1, faults).value.None?
    ensures Login(st, ext, username, p1, faults).err
            == StatusError(LoadedStatus(st, LookupLogin(st, username).uid, LoadUser in faults))
    ensures Login(st, ext, username, p1, faults).err != Some(ErrPasswd)
  {
  }

  /** A status with no error entry makes Login return neither a credential
      nor an error, whatever the password. */
  lemma LoginUnmappedStatusReturnsNothing(st: Store, ext: Externals, username: string, passwd: string,
                                          faults: set<Call>)
    requires QueryLogin !in faults && LoadUser !in faults
    requires LookupLogin(st, username).uid in st.users
    requires LookupLogin(st, username).uid != 0
    requires st.users[LookupLogin(st, username).uid].status !in
               {UserStatusNoAudit, UserStatusAudit, UserStatusRefuse, UserStatusFreeze, UserStatusOutage}
    ensures Login(st, ext, username, passwd, faults).value.None?
    ensures Login(st, ext, username, passwd, faults).err.None?
  {
  }

  /** The error of Login's user-row read is ignored: a failed read looks like
      a not-yet-activated account, whatever the stored status. */
  lemma LoginLoadFailureReadsAsNotActivated(st: Store, ext: Externals, username: string, passwd: string,
                                            faults: set<Call>)
    requires QueryLogin !in faults && LoadUser in faults
    requires NonZeroLoginUids(st)
    requires exists k :: k in st.logins && Identifies(username, st.logins[k])
    ensures Login(st, ext, username, passwd, faults).err == Some(NotActivated)
  {
  }

  // ---------------------------------------------------------------------------
  // Password change and reset

  /** Lookups by identifier see the same row in two credential tables that
      differ only in hashes and passcodes. */
  lemma LoginKeyStable(st1: Store, st2: Store, ident: string)
    requires SameIdentities(st1.logins, st2.logins)
    ensures LoginKey(st1, ident) == LoginKey(st2, ident)
  {
    var p := IdentifiedBy(ident);
    forall k
      ensures k in Hits(st1.logins, p) <==> k in Hits(st2.logins, p)
    {
      if k in st1.logins {
        assert p(st1.logins[k]) == Identifies(ident, st1.logins[k]);
        assert p(st2.logins[k]) == Identifies(ident, st2.logins[k]);
      }
    }
    assert Hits(st1.logins, p) == Hits(st2.logins, p);
  }

  /** Round trip: after a successful password change, logging in with the
      new password succeeds and returns the same credential with its new hash
      and passcode (when the hash the change stores is the one Login checks,
      and the credential was found by its username). */
  lemma UpdatePasswdThenLogin(st: Store, ext: Externals, username: string, curPasswd: string,
                              newPasswd: string, salt: string, faults: set<Call>)
    requires Login(st, ext, username, curPasswd, faults).value.Some?
    requires UpdatePasswd(st, ext, username, curPasswd, newPasswd, salt, faults).err.None?
    requires LookupLogin(st, username).username == username
    requires ext.genMd5Passwd(newPasswd, salt) == ext.md5(newPasswd + salt)
    ensures var st' := UpdatePasswd(st, ext, username, curPasswd, newPasswd, salt, faults).store;
            Login(st', ext, username, newPasswd, faults).value
            == Some(LookupLogin(st, username).(passwd := ext.md5(newPasswd + salt), passcode := salt))
  {
    var st' := UpdatePasswd(st, ext, username, curPasswd, newPasswd, salt, faults).store;
    assert SameIdentities(st.logins, st'.logins);
    LoginKeyStable(st, st', username);
  }

  /** With an unmapped status the re-authentication "succeeds" without looking
      at the password, so the password is changed whatever current password is
      given. */
  lemma UpdatePasswdUnmappedStatusSkipsCheck(st: Store, ext: Externals, username: string, curPasswd: string,
                                             newPasswd: string, salt: string)
    requires LookupLogin(st, username).uid in st.users
    requires LookupLogin(st, username).uid != 0
    requires LookupLogin(st, username).username == username
    requires st.users[LookupLogin(st, username).uid].status !in
               {UserStatusNoAudit, UserStatusAudit, UserStatusRefuse, UserStatusFreeze, UserStatusOutage}
    ensures var r := UpdatePasswd(st, ext, username, curPasswd, newPasswd, salt, {});
            && r.err.None?
            && LoginKey(st, username).Some?
            && r.store.logins[LoginKey(st, username).value].passcode == salt
  {
    LoginUnmappedStatusReturnsNothing(st, ext, username, curPasswd, {});
  }

  /** Re-authentication accepts an email, but the write matches usernames
      only: given an identifier that is no account's username, a successful
      change writes nothing. */
  lemma UpdatePasswdByEmailWritesNothing(st: Store, ext: Externals, ident: string, curPasswd: string,
                                         newPasswd: string, salt: string, faults: set<Call>)
    requires forall k :: k in st.logins ==> st.logins[k].username != ident
    ensures UpdatePasswd(st, ext, ident, curPasswd, newPasswd, salt, faults).store == st
  {
    var r := UpdatePasswd(st, ext, ident, curPasswd, newPasswd, salt, faults);
    if r.err.None? {
      assert r.store.logins == st.logins;
    }
  }

  /** Round trip: after a reset by email, logging in with that email and the
      new password passes the password check. */
  lemma ResetPasswdThenLogin(st: Store, ext: Externals, email: string, passwd: string, salt: string,
                             faults: set<Call>)
    requires ResetPasswd(st, ext, email, passwd, salt, faults).err.None?
    requires QueryLogin !in faults && LoadUser !in faults
    requires NonZeroLoginUids(st)
    requires LoginKey(st, email).Some?
    requires LookupLogin(st, email).email == email
    requires LookupLogin(st, email).uid in st.users
    requires st.users[LookupLogin(st, email).uid].status == UserStatusAudit
    requires ext.genMd5Passwd(passwd, salt) == ext.md5(passwd + salt)
    ensures var st' := ResetPasswd(st, ext, email, passwd, salt, faults).store;
            Login(st', ext, email, passwd, faults).value
            == Some(LookupLogin(st, email).(passwd := ext.md5(passwd + salt), passcode := salt))
  {
    var st' := ResetPasswd(st, ext, email, passwd, salt, faults).store;
    assert SameIdentities(st.logins, st'.logins);
    LoginKeyStable(st, st', email);
  }

  // ---------------------------------------------------------------------------
  // Activation

  /** On a well-formed store a successful activation rewrites exactly one
      row, the one found by email, and only its status. */
  lemma ActivateChangesOnlyStatus(st: Store, ext: Externals, email: string, uuid: string, timestamp: int,
                                  sign: string, faults: set<Call>)
    requires WellFormed(st)
    requires Activate(st, ext, email, uuid, timestamp, sign, faults).err.None?
    ensures var r := Activate(st, ext, email, uuid, timestamp, sign, faults);
            var uid := r.value.value.uid;
            && uid in st.users
            && st.users[uid].email == email
            && r.store.users == st.users[uid := st.users[uid].(status := UserStatusAudit)]
  {
    var r := Activate(st, ext, email, uuid, timestamp, sign, faults);
    var found := First(st.users, (u: User) => u.email == email);
    assert found.Some?;
    var k :| k in st.users && st.users[k] == found.value;
    assert st.users[k].uid == k;
  }

  /** After activating the account behind a credential, Login no longer stops
      at the status gate for that credential. */
  lemma ActivateThenLoginPassesGate(st: Store, ext: Externals, email: string, uuid: string, timestamp: int,
                                    sign: string, faults: set<Call>, ident: string, passwd: string)
    requires WellFormed(st)
    requires Activate(st, ext, email, uuid, timestamp, sign, faults).err.None?
    requires QueryLogin !in faults && LoadUser !in faults
    requires LookupLogin(st, ident).uid == Activate(st, ext, email, uuid, timestamp, sign, faults).value.value.uid
    ensures var st' := Activate(st, ext, email, uuid, timestamp, sign, faults).store;
            Login(st', ext, ident, passwd, faults).err in
              {None, Some(ErrPasswd)}
  {
    ActivateChangesOnlyStatus(st, ext, email, uuid, timestamp, sign, faults);
  }

  // ---------------------------------------------------------------------------
  // Profile update and avatar change

  /** Every "open" value other than "1" behaves like "0": two forms that
      differ only there lead to the same reply. */
  lemma UpdateTreatsNonOneOpenAlike(st: Store, ext: Externals, uid: int, f1: Form.Values, f2: Form.Values,
                                    faults: set<Call>)
    requires f1 - {"open"} == f2 - {"open"}
    requires Form.Get(f1, "open") != "1" && Form.Get(f2, "open") != "1"
    ensures Update(st, ext, uid, f1, faults) == Update(st, ext, uid, f2, faults)
  {
    var n1 := NormalizeOpen(f1);
    var n2 := NormalizeOpen(f2);
    assert n1 == (f1 - {"open"})["open" := ["0"]];
    assert n2 == (f2 - {"open"})["open" := ["0"]];
  }

  /** Updating a profile twice with the same form is the same as once. */
  lemma UpdateIdempotent(st: Store, ext: Externals, uid: int, form: Form.Values, faults: set<Call>)
    ensures var once := Update(st, ext, uid, form, faults);
            Update(once.store, ext, uid, form, faults) == once
  {
    var once := Update(st, ext, uid, form, faults);
    if once.err.None? {
      var twice := Update(once.store, ext, uid, form, faults);
      assert twice.store.users == once.store.users;
    }
  }

  /** A successful avatar change leaves the user row and its activity row
      showing the same avatar. */
  lemma ChangeAvatarKeepsRowsInSync(st: Store, uid: int, avatar: string, faults: set<Call>)
    requires uid in st.users && uid in st.actives
    requires ChangeAvatar(st, uid, avatar, faults).err.None?
    ensures var s := ChangeAvatar(st, uid, avatar, faults).store;
            s.users[uid].avatar == s.actives[uid].avatar == avatar
  {
  }

  /** A failed second write is reported, yet the first write stays. */
  lemma ChangeAvatarPartialCommit(st: Store, uid: int, avatar: string)
    requires uid in st.users && st.users[uid].avatar != avatar
    ensures var r := ChangeAvatar(st, uid, avatar, {WriteActive});
            r.err == Some(Storage) && r.store != st && r.store.actives == st.actives
  {
    var r := ChangeAvatar(st, uid, avatar, {WriteActive});
    assert r.store.users[uid].avatar != st.users[uid].avatar;
  }

  // ---------------------------------------------------------------------------
  // Activity weight

  /** Two increments of the same rows add up. */
  lemma IncrUserWeightAdds(st: Store, where: ActiveField, a: int, b: int)
    ensures IncrUserWeight(IncrUserWeight(st, where, a, false), where, b, false)
            == IncrUserWeight(st, where, a + b, false)
  {
    var once := IncrUserWeight(st, where, a, false);
    var twice := IncrUserWeight(once, where, b, false);
    var both := IncrUserWeight(st, where, a + b, false);
    forall k | k in st.actives
      ensures twice.actives[k] == both.actives[k]
    {
      assert ActiveMatches(where, once.actives[k]) == ActiveMatches(where, st.actives[k]);
    }
    assert twice.actives == both.actives;
  }

  // ---------------------------------------------------------------------------
  // The store invariants survive every write

  lemma UpdatePreservesWellFormed(st: Store, ext: Externals, uid: int, form: Form.Values, faults: set<Call>)
    requires WellFormed(st)
    ensures WellFormed(Update(st, ext, uid, form, faults).store)
    ensures Grows(st, Update(st, ext, uid, form, faults).store)
  {
  }

  lemma ChangeAvatarPreservesWellFormed(st: Store, uid: int, avatar: string, faults: set<Call>)
    requires WellFormed(st)
    ensures WellFormed(ChangeAvatar(st, uid, avatar, faults).store)
    ensures Grows(st, ChangeAvatar(st, uid, avatar, faults).store)
  {
  }

  lemma PasswdWritesPreserveWellFormed(st: Store, ext: Externals, name: string, p1: string, p2: string,
                                       salt: string, faults: set<Call>)
    requires WellFormed(st)
    ensures WellFormed(UpdatePasswd(st, ext, name, p1, p2, salt, faults).store)
    ensures WellFormed(ResetPasswd(st, ext, name, p1, salt, faults).store)
    ensures Grows(st, UpdatePasswd(st, ext, name, p1, p2, salt, faults).store)
    ensures Grows(st, ResetPasswd(st, ext, name, p1, salt, faults).store)
  {
  }

  lemma ActivatePreservesWellFormed(st: Store, ext: Externals, email: string, uuid: string, timestamp: int,
                                    sign: string, faults: set<Call>)
    requires WellFormed(st)
    ensures WellFormed(Activate(st, ext, email, uuid, timestamp, sign, faults).store)
    ensures Grows(st, Activate(st, ext, email, uuid, timestamp, sign, faults).store)
  {
    if Activate(st, ext, email, uuid, timestamp, sign, faults).err.None? {
      ActivateChangesOnlyStatus(st, ext, email, uuid, timestamp, sign, faults);
    }
  }

  lemma IncrUserWeightPreservesWellFormed(st: Store, where: ActiveField, weight: int, fails: bool)
    requires WellFormed(st)
    ensures WellFormed(IncrUserWeight(st, where, weight, fails))
    ensures Grows(st, IncrUserWeight(st, where, weight, fails))
  {
  }

  /** Password writes never touch emails or usernames, so uniqueness survives. */
  lemma PasswdWritesKeepCredentialsUnique(st: Store, ext: Externals, name: string, p1: string, p2: string,
                                          salt: string, faults: set<Call>)
    requires UniqueCredentials(st)
    ensures UniqueCredentials(UpdatePasswd(st, ext, name, p1, p2, salt, faults).store)
    ensures UniqueCredentials(ResetPasswd(st, ext, name, p1, salt, faults).store)
  {
  }
}

=== FILE: scenario.dfy ===
/** An end-to-end run of the account lifecycle: register, a rejected second
    registration with the same email, a login refused before activation,
    activation, a successful login and its +1 weight bonus. */
module Scenario {
  import opened Wrappers
  import opened Model
  import opened Tables
  import opened UserLogic
  import Form

  const Alice: Form.Values :=
    map["email" := ["a@x.com"], "username" := ["alice"], "passwd" := ["p1"]]
  const SameEmail: Form.Values :=
    map["email" := ["a@x.com"], "username" := ["alicia"], "passwd" := ["p2"]]
  const EmptyStore := Store(map[], map[], map[], map[], 1)

  /** The decoders read Alice's form as a NoAudit account whose credential
      holds the salted hash of "p1". */
  ghost predicate DecodesAlice(ext: Externals, salt: string) {
    && ext.decodeUser(Alice) == Success(User(0, "alice", "a@x.com", "", UserStatusNoAudit, ZeroProfile))
    && ext.decodeLogin(Alice) == Success(UserLogin(0, "alice", "a@x.com", ext.md5("p1" + salt), salt))
  }

  /** The store right after Alice registered. */
  function Registered(ext: Externals, roleIds: seq<int>, pick: nat, salt: string): (s: Store)
    requires pick < |DefaultAvatars| && |roleIds| > 0
  {
    Store(
      map[1 := User(1, "alice", "a@x.com", DefaultAvatars[pick], UserStatusNoAudit, ZeroProfile)],
      map[1 := UserLogin(1, "alice", "a@x.com", ext.md5("p1" + salt), salt)],
      map[1 := roleIds[|roleIds| - 1]],
      map[1 := UserActive(1, "alice", "a@x.com", DefaultAvatars[pick], 2)],
      2)
  }

  lemma RegisterAlice(ext: Externals, roleIds: seq<int>, pick: nat, salt: string)
    requires pick < |DefaultAvatars| && |roleIds| > 0
    requires DecodesAlice(ext, salt)
    ensures CreateUser(EmptyStore, ext, Alice, roleIds, pick, {})
            == Reply(NoMsg, None, Registered(ext, roleIds, pick, salt))
  {
    assert Form.Get(Alice, "email") == "a@x.com";
    assert Form.Get(Alice, "username") == "alice";
    assert !UserExists(EmptyStore, ByEmail, "a@x.com", false);
    assert !UserExists(EmptyStore, ByUsername, "alice", false);
  }

  lemma SecondRegistrationRejected(ext: Externals, roleIds: seq<int>, pick: nat, salt: string)
    requires pick < |DefaultAvatars| && |roleIds| > 0
    ensures var st := Registered(ext, roleIds, pick, salt);
            CreateUser(st, ext, SameEmail, roleIds, pick, {}) == Reply(NoMsg, Some(EmailRegistered), st)
  {
    var st := Registered(ext, roleIds, pick, salt);
    assert Form.Get(SameEmail, "email") == "a@x.com";
    assert st.logins[1].email == "a@x.com";
    assert UserExists(st, ByEmail, "a@x.com", false);
  }

  lemma AliceLooksUpAlice(st: Store)
    requires st.logins.Keys == {1} && st.logins[1].username == "alice"
    ensures LookupLogin(st, "alice") == st.logins[1]
  {
    assert LoginKey(st, "alice").Some?;
  }

  lemma LoginBeforeActivation(ext: Externals, roleIds: seq<int>, pick: nat, salt: string)
    requires pick < |DefaultAvatars| && |roleIds| > 0
    ensures Login(Registered(ext, roleIds, pick, salt), ext, "alice", "p1", {}).err == Some(NotActivated)
  {
    AliceLooksUpAlice(Registered(ext, roleIds, pick, salt));
  }

  /** The store after Alice's activation. */
  function Activated(ext: Externals, roleIds: seq<int>, pick: nat, salt: string): (s: Store)
    requires pick < |DefaultAvatars| && |roleIds| > 0
  {
    var st := Registered(ext, roleIds, pick, salt);
    st.(users := map[1 := st.users[1].(status := UserStatusAudit)])
  }

  lemma ActivateAlice(ext: Externals, roleIds: seq<int>, pick: nat, salt: string, uuid: string, timestamp: int)
    requires pick < |DefaultAvatars| && |roleIds| > 0
    ensures var r := Activate(Registered(ext, roleIds, pick, salt), ext, "a@x.com", uuid, timestamp,
                              ext.activateSign("a@x.com", uuid, timestamp), {});
            r.err.None? && r.store == Activated(ext, roleIds, pick, salt)
  {
    var st := Registered(ext, roleIds, pick, salt);
    assert LookupUserByEmail(st, "a@x.com", false) == st.users[1];
  }

  lemma LoginAfterActivation(ext: Externals, roleIds: seq<int>, pick: nat, salt: string)
    requires pick < |DefaultAvatars| && |roleIds| > 0
    ensures var st := Activated(ext, roleIds, pick, salt);
            Login(st, ext, "alice", "p1", {}) == Reply(Some(st.logins[1]), None, st)
  {
    AliceLooksUpAlice(Activated(ext, roleIds, pick, salt));
  }

  /** The whole lifecycle, ending with weight 2 + 1 once the login bonus ran. */
  lemma RegisterActivateLogin(ext: Externals, roleIds: seq<int>, pick: nat, uuid: string, timestamp: int,
                              salt: string)
    requires pick < |DefaultAvatars| && |roleIds| > 0
    requires DecodesAlice(ext, salt)
    ensures var r1 := CreateUser(EmptyStore, ext, Alice, roleIds, pick, {});
            var r2 := CreateUser(r1.store, ext, SameEmail, roleIds, pick, {});
            var early := Login(r1.store, ext, "alice", "p1", {});
            var r3 := Activate(r1.store, ext, "a@x.com", uuid, timestamp,
                               ext.activateSign("a@x.com", uuid, timestamp), {});
            var late := Login(r3.store, ext, "alice", "p1", {});
            var st4 := IncrUserWeight(r3.store, ActiveUid(1), 1, false);
            && r1.err.None?
            && r2.err == Some(EmailRegistered) && r2.store == r1.store
            && early.err == Some(NotActivated)
            && r3.err.None?
            && late.value.Some? && late.value.value.uid == 1 && late.value.value.username == "alice"
            && 1 in st4.actives && st4.actives[1].weight == 3
  {
    RegisterAlice(ext, roleIds, pick, salt);
    SecondRegistrationRejected(ext, roleIds, pick, salt);
    LoginBeforeActivation(ext, roleIds, pick, salt);
    ActivateAlice(ext, roleIds, pick, salt, uuid, timestamp);
    LoginAfterActivation(ext, roleIds, pick, salt);
  }
}

=== FILE: store.dfy ===
/** The persistence layer seen by the account logic: four tables keyed by uid
    and the auto-increment counter of the user table, with the handful of
    query and write primitives the account logic uses. */
module Tables {
  import opened Wrappers
  import opened Model

  datatype Store = Store(
    users: map<int, User>,
    logins: map<int, UserLogin>,
    roles: map<int, int>,           // uid -> roleid
    actives: map<int, UserActive>,
    nextUid: int)                   // the next auto-increment uid of the user table

  /** Every row sits under its own uid, uids are positive and below the counter. */
  ghost predicate WellFormed(st: Store) {
    && 0 < st.nextUid
    && (forall k :: k in st.users ==> 0 < k < st.nextUid && st.users[k].uid == k)
    && (forall k :: k in st.logins ==> 0 < k < st.nextUid && st.logins[k].uid == k)
    && (forall k :: k in st.roles ==> 0 < k < st.nextUid)
    && (forall k :: k in st.actives ==> 0 < k < st.nextUid && st.actives[k].uid == k)
  }

  /** `r` loses no row of `st` and does not move the uid counter back. */
  ghost predicate Grows(st: Store, r: Store) {
    && st.users.Keys <= r.users.Keys
    && st.logins.Keys <= r.logins.Keys
    && st.roles.Keys <= r.roles.Keys
    && st.actives.Keys <= r.actives.Keys
    && st.nextUid <= r.nextUid
  }

  /** `s` keeps every row of `st` and adds rows only under `uid`, each
      carrying that uid. */
  ghost predicate AddsOnlyAt(st: Store, s: Store, uid: int) {
    && (forall k :: k in st.users ==> k in s.users && s.users[k] == st.users[k])
    && (forall k :: k in st.logins ==> k in s.logins && s.logins[k] == st.logins[k])
    && (forall k :: k in st.roles ==> k in s.roles && s.roles[k] == st.roles[k])
    && (forall k :: k in st.actives ==> k in s.actives && s.actives[k] == st.actives[k])
    && (forall k :: k in s.users && k !in st.users ==> k == uid && s.users[k].uid == k)
    && (forall k :: k in s.logins && k !in st.logins ==> k == uid && s.logins[k].uid == k)
    && (forall k :: k in s.roles && k !in st.roles ==> k == uid)
    && (forall k :: k in s.actives && k !in st.actives ==> k == uid && s.actives[k].uid == k)
  }

  lemma AddsOnlyAtTransitive(a: Store, b: Store, c: Store, uid: int)
    requires AddsOnlyAt(a, b, uid) && AddsOnlyAt(b, c, uid)
    ensures AddsOnlyAt(a, c, uid)
  {
  }

  /** Adding rows under the counter's uid and advancing the counter keeps a
      store well-formed, and loses nothing. */
  lemma AddsAtCounterPreservesWellFormed(st: Store, s: Store)
    requires WellFormed(st) && AddsOnlyAt(st, s, st.nextUid) && s.nextUid == st.nextUid + 1
    ensures WellFormed(s) && Grows(st, s)
  {
    forall k | k in st.users ensures k in s.users { }
    forall k | k in st.logins ensures k in s.logins { }
    forall k | k in st.roles ensures k in s.roles { }
    forall k | k in st.actives ensures k in s.actives { }
  }

  predicate IsLeast(k: int, keys: set<int>) {
    k in keys && forall j :: j in keys ==> k <= j
  }

  /** Every finite non-empty set of uids has a least element. */
  lemma {:induction false} LeastExists(keys: set<int>)
    requires keys != {}
    ensures exists k :: IsLeast(k, keys)
    decreases |keys|
  {
    NonEmptyHasMember(keys);
    var x :| x in keys;
    if keys != {x} {
      var rest := keys - {x};
      LeastExists(rest);
      var m :| IsLeast(m, rest);
      assert forall j :: j in keys ==> j == x || j in rest;
      if x < m {
        assert IsLeast(x, keys);
      } else {
        assert IsLeast(m, keys);
      }
    } else {
      assert IsLeast(x, keys);
    }
  }

  lemma NonEmptyHasMember(keys: set<int>)
    requires keys != {}
    ensures exists x :: x in keys
  {
    if forall y :: y !in keys {
      assert false;
    }
  }

  /** The least uid of a non-empty set. */
  function Least(keys: set<int>): (k: int)
    requires keys != {}
    ensures k in keys
    ensures forall j :: j in keys ==> k <= j
  {
    LeastExists(keys);
    var k :| IsLeast(k, keys);
    k
  }

  /** The uids of the rows that satisfy `p`. */
  function Hits<V>(m: map<int, V>, p: V -> bool): (ks: set<int>)
    ensures forall k :: k in ks <==> k in m && p(m[k])
  {
    set k | k in m && p(m[k])
  }

  /** The key of the row a single-row query reads: the least matching uid. */
  function FirstKey<V>(m: map<int, V>, p: V -> bool): (r: Option<int>)
    ensures r.None? <==> forall k :: k in m ==> !p(m[k])
    ensures r.Some? ==> r.value in m && p(m[r.value])
    ensures r.Some? ==> forall j :: j in m && p(m[j]) ==> r.value <= j
  {
    var ks := Hits(m, p);
    if ks == {} then None else Some(Least(ks))
  }

  /** A single-row query (`Where(...).Get`): the matching row with the least uid. */
  function First<V>(m: map<int, V>, p: V -> bool): (r: Option<V>)
    ensures r.None? <==> forall k :: k in m ==> !p(m[k])
    ensures r.Some? ==> p(r.value)
    ensures r.Some? ==> exists k :: k in m && m[k] == r.value && forall j :: j in m && p(m[j]) ==> k <= j
  {
    match FirstKey(m, p)
    case None => None
    case Some(k) => Some(m[k])
  }

  /** An insert keyed by `k`: fails on an injected fault or a primary-key conflict. */
  function Insert<V>(m: map<int, V>, k: int, v: V, fails: bool): (r: Option<map<int, V>>)
    ensures r.Some? <==> !fails && k !in m
    ensures r.Some? ==> r.value.Keys == m.Keys + {k} && r.value[k] == v
    ensures r.Some? ==> forall j :: j in m ==> r.value[j] == m[j]
  {
    if fails || k in m then None else Some(m[k := v])
  }

  /** An update by primary key (`Id(k).Update`): no row, no change and no error. */
  function UpdateId<V>(m: map<int, V>, k: int, f: V -> V): (r: map<int, V>)
    ensures r.Keys == m.Keys
    ensures k in m ==> r[k] == f(m[k])
    ensures forall j :: j in m && j != k ==> r[j] == m[j]
  {
    if k in m then m[k := f(m[k])] else m
  }

  /** An update of every row satisfying `p` (`Where(...).Update`). */
  function UpdateWhere<V>(m: map<int, V>, p: V -> bool, f: V -> V): (r: map<int, V>)
    ensures r.Keys == m.Keys
    ensures forall j :: j in m ==> r[j] == (if p(m[j]) then f(m[j]) else m[j])
  {
    map j | j in m :: if p(m[j]) then f(m[j]) else m[j]
  }
}

=== FILE: user_logic.dfy ===
/** The account-lifecycle decisions of `UserLogic`: registration, profile and
    avatar updates, uniqueness queries, login, password change and reset,
    email activation and the activity-weight increment. Every operation is a
    pure function from the store and its inputs to a reply carrying the
    user-facing message or returned value, the error, and the new store. */
module UserLogic {
  import opened Wrappers
  import opened Model
  import opened Tables
  import Form

  /** The avatar catalog a new account draws from. */
  const DefaultAvatars: seq<string> := [
    "gopher_aqua.jpg", "gopher_boy.jpg", "gopher_brown.jpg", "gopher_gentlemen.jpg",
    "gopher_strawberry.jpg", "gopher_strawberry_bg.jpg", "gopher_teal.jpg",
    "gopher01.png", "gopher02.png", "gopher03.png", "gopher04.png",
    "gopher05.png", "gopher06.png", "gopher07.png", "gopher08.png",
    "gopher09.png", "gopher10.png", "gopher11.png", "gopher12.png",
    "gopher13.png", "gopher14.png", "gopher15.png", "gopher16.png",
    "gopher17.png", "gopher18.png", "gopher19.png", "gopher20.png",
    "gopher21.png", "gopher22.png", "gopher23.png", "gopher24.png",
    "gopher25.png", "gopher26.png", "gopher27.png", "gopher28.png"
  ]

  /** The storage calls the operations make. An operation is given the set of
      calls that fail; every other call succeeds. */
  datatype Call =
    | CheckEmail      // the email uniqueness query of registration
    | CheckUsername   // the username uniqueness query of registration
    | InsertUser
    | InsertLogin
    | InsertRole
    | InsertActive
    | QueryLogin      // the username-or-email credential lookup of Login
    | LoadUser        // Login's read of the user row (its error is ignored)
    | QueryUser       // Activate's user lookup by email (its error is ignored)
    | WriteUser       // an update of one user row
    | WriteActive     // an update of one user_active row
    | WriteLogin      // an update of the matching user_login rows

  /** The user-facing message returned beside an error. */
  datatype Msg =
    | NoMsg                  // the empty message
    | DecodeDetail(text: string)  // the decoder's own error text
    | ServerError            // registration's generic internal error
    | ServiceError           // profile decode failure
    | TryLater               // profile write failure
    | WrongCurrentPasswd     // password change: re-authentication failed
    | PasswdServiceError     // password change or reset: write failed

  /** The error values the operations return. */
  datatype Error =
    | EmailRegistered        // registration: the email has a credential
    | UsernameTaken          // registration: the username has a credential
    | Decode(text: string)   // the form decoder failed
    | Storage                // a storage call failed; its error is passed on
    | LoginUnavailable       // Login: the credential lookup failed
    | ErrUsername            // Login: no credential for the identifier
    | ErrPasswd              // Login: wrong password
    | NotActivated           // status NoAudit
    | Refused                // status Refuse
    | Frozen                 // status Freeze
    | Suspended              // status Outage
    | BadSignature           // Activate: signature mismatch
    | BadEmail               // Activate: no account with that email

  /** Collaborators the account logic calls but does not implement. */
  datatype Externals = Externals(
    decodeUser: Form.Values -> Result<User, string>,        // form decoder into a user row
    decodeLogin: Form.Values -> Result<UserLogin, string>,  // form decoder into a credential row
    md5: string -> string,                                  // MD5 hex digest
    genMd5Passwd: (string, string) -> string,               // salted hash of (password, fresh passcode)
    activateSign: (string, string, int) -> string)          // activation signer (email, uuid, timestamp)

  /** What an operation hands back: its value, its error, and the store after it. */
  datatype Reply<T> = Reply(value: T, err: Option<Error>, store: Store)

  /** The credential columns the uniqueness query can filter on. */
  datatype LoginField = ByEmail | ByUsername

  predicate HasColumn(field: LoginField, val: string, l: UserLogin) {
    match field
    case ByEmail => l.email == val
    case ByUsername => l.username == val
  }

  /** A credential answers to a login identifier by its username or its email. */
  predicate Identifies(ident: string, l: UserLogin) {
    l.username == ident || l.email == ident
  }

  /** The user_active columns the weight increment can filter on. */
  datatype ActiveField = ActiveUid(uid: int) | ActiveUsername(username: string) | ActiveEmail(email: string)

  predicate ActiveMatches(w: ActiveField, a: UserActive) {
    match w
    case ActiveUid(uid) => a.uid == uid
    case ActiveUsername(name) => a.username == name
    case ActiveEmail(email) => a.email == email
  }

  /** No stored credential carries the zero uid that marks "no row read". */
  ghost predicate NonZeroLoginUids(st: Store) {
    forall k :: k in st.logins ==> st.logins[k].uid != 0
  }

  // ---------------------------------------------------------------------------
  // Uniqueness queries

  /** Whether a credential with `field == val` exists; a failed query reads as "no". */
  function UserExists(st: Store, field: LoginField, val: string, queryFails: bool): (r: bool)
    ensures r ==> !queryFails
    ensures r ==> exists k :: k in st.logins && HasColumn(field, val, st.logins[k]) && st.logins[k].uid != 0
    ensures !queryFails && NonZeroLoginUids(st) ==>
              (r <==> exists k :: k in st.logins && HasColumn(field, val, st.logins[k]))
  {
    if queryFails then false
    else First(st.logins, l => HasColumn(field, val, l)).GetOr(ZeroLogin).uid != 0
  }

  /** Despite its name, true exactly when the query succeeded and found no
      credential with that email or that username. */
  function EmailOrUsernameExists(st: Store, email: string, username: string, queryFails: bool): (r: bool)
    ensures r ==> !queryFails
    ensures !queryFails && NonZeroLoginUids(st) ==>
              (r <==> forall k :: k in st.logins ==>
                        !(st.logins[k].email == email || st.logins[k].username == username))
  {
    if queryFails then false
    else
      var found := First(st.logins, (l: UserLogin) => l.email == email || l.username == username).GetOr(ZeroLogin);
      found.uid == 0
  }

  // ---------------------------------------------------------------------------
  // Registration

  /** Registers the account described by `form`. The email is checked before
      the username; the user row takes the next uid and the avatar at `pick`
      (the random draw); the credential, the role (the last, lowest-privilege
      entry of `roleIds`) and the activity row follow under the same uid. */
  function CreateUser(st: Store, ext: Externals, form: Form.Values, roleIds: seq<int>,
                      pick: nat, faults: set<Call>): (r: Reply<Msg>)
    requires pick < |DefaultAvatars|
    requires |roleIds| > 0
    // conflicts: email first, then username; nothing is written
    ensures UserExists(st, ByEmail, Form.Get(form, "email"), CheckEmail in faults) ==>
              r == Reply(NoMsg, Some(EmailRegistered), st)
    ensures && !UserExists(st, ByEmail, Form.Get(form, "email"), CheckEmail in faults)
            && UserExists(st, ByUsername, Form.Get(form, "username"), CheckUsername in faults) ==>
              r == Reply(NoMsg, Some(UsernameTaken), st)
    ensures r.err == Some(UsernameTaken) ==>
              r.store == st && exists k :: k in st.logins && st.logins[k].username == Form.Get(form, "username")
    ensures r.err == Some(EmailRegistered) ==>
              exists k :: k in st.logins && st.logins[k].email == Form.Get(form, "email")
    // past the gate, the reply is that of the enrolment writes
    ensures && !UserExists(st, ByEmail, Form.Get(form, "email"), CheckEmail in faults)
            && !UserExists(st, ByUsername, Form.Get(form, "username"), CheckUsername in faults) ==>
              r == Enroll(st, ext, form, roleIds[|roleIds| - 1], pick, faults)
    // existing rows are never overwritten; new rows sit under the new uid
    ensures AddsOnlyAt(st, r.store, st.nextUid)
    ensures r.store == st || (r.store.nextUid == st.nextUid + 1 && st.nextUid in r.store.users)
    // success: four linked rows under the new uid
    ensures r.err.None? ==> Enrolled(st, r.store, ext, form, roleIds[|roleIds| - 1], pick, faults)
  {
    match Conflict(st, Form.Get(form, "email"), Form.Get(form, "username"), faults)
    case Some(e) => Reply(NoMsg, Some(e), st)
    case None => Enroll(st, ext, form, roleIds[|roleIds| - 1], pick, faults)
  }

  /** The uniqueness gate of a registration: the email is checked first, then
      the username; a failed check query reads as "not taken". */
  function Conflict(st: Store, email: string, username: string, faults: set<Call>): (r: Option<Error>)
    ensures r.None? || r == Some(EmailRegistered) || r == Some(UsernameTaken)
    ensures r == Some(EmailRegistered) <==> UserExists(st, ByEmail, email, CheckEmail in faults)
    ensures r == Some(UsernameTaken) <==>
              !UserExists(st, ByEmail, email, CheckEmail in faults) &&
              UserExists(st, ByUsername, username, CheckUsername in faults)
    ensures r == Some(UsernameTaken) ==> exists k :: k in st.logins && st.logins[k].username == username
    ensures r == Some(EmailRegistered) ==> exists k :: k in st.logins && st.logins[k].email == email
  {
    if UserExists(st, ByEmail, email, CheckEmail in faults) then Some(EmailRegistered)
    else if UserExists(st, ByUsername, username, CheckUsername in faults) then Some(UsernameTaken)
    else None
  }

  /** The activity row a new account starts with: the user's name, email and
      avatar, and an initial weight of 2. */
  function InitialActive(user: User): (a: UserActive)
    ensures a.uid == user.uid && a.weight == 2
  {
    UserActive(user.uid, user.username, user.email, user.avatar, 2)
  }

  /** `s` is `st` plus a registered account under uid `st.nextUid`: the decoded
      user row with that uid and the drawn avatar, the decoded credential with
      that uid, its initial activity row, and the role `role` unless its
      insert failed; the counter has moved past the uid. */
  ghost predicate Enrolled(st: Store, s: Store, ext: Externals, form: Form.Values, role: int, pick: nat,
                           faults: set<Call>)
    requires pick < |DefaultAvatars|
  {
    var uid := st.nextUid;
    && ext.decodeUser(form).Success?
    && ext.decodeLogin(form).Success?
    && uid !in st.users && uid !in st.logins && uid !in st.actives
    && s.users == st.users[uid := ext.decodeUser(form).value.(uid := uid, avatar := DefaultAvatars[pick])]
    && s.logins == st.logins[uid := ext.decodeLogin(form).value.(uid := uid)]
    && s.actives == st.actives[uid := InitialActive(s.users[uid])]
    && s.roles == (if InsertRole in faults || uid in st.roles then st.roles else st.roles[uid := role])
    && s.nextUid == uid + 1
  }

  /** The writes of a registration that passed the uniqueness gate: decode
      and insert the user row, then the rows linked to it. */
  function Enroll(st: Store, ext: Externals, form: Form.Values, role: int, pick: nat, faults: set<Call>)
    : (r: Reply<Msg>)
    requires pick < |DefaultAvatars|
    ensures r.err != Some(EmailRegistered) && r.err != Some(UsernameTaken)
    // a failed decode or user insert is returned and writes nothing
    ensures ext.decodeUser(form).Failure? ==>
              var text := ext.decodeUser(form).error;
              r == Reply(DecodeDetail(text), Some(Decode(text)), st)
    ensures ext.decodeUser(form).Success? && (InsertUser in faults || st.nextUid in st.users) ==>
              r == Reply(ServerError, Some(Storage), st)
    // once the user row is stored under the counter's uid, the linked rows follow
    ensures ext.decodeUser(form).Success? && InsertUser !in faults && st.nextUid !in st.users ==>
              var user := ext.decodeUser(form).value.(uid := st.nextUid, avatar := DefaultAvatars[pick]);
              r == LinkRows(st.(users := st.users[st.nextUid := user], nextUid := st.nextUid + 1),
                            ext, form, user, role, faults)
    ensures AddsOnlyAt(st, r.store, st.nextUid)
    ensures r.store == st || (r.store.nextUid == st.nextUid + 1 && st.nextUid in r.store.users)
    ensures r.err.None? ==> Enrolled(st, r.store, ext, form, role, pick, faults)
  {
    match ext.decodeUser(form)
    case Failure(text) => Reply(DecodeDetail(text), Some(Decode(text)), st)
    case Success(decoded) =>
      var uid := st.nextUid;
      var user := decoded.(uid := uid, avatar := DefaultAvatars[pick]);
      match Insert(st.users, uid, user, InsertUser in faults)
      case None => Reply(ServerError, Some(Storage), st)
      case Some(users) =>
        var st1 := st.(users := users, nextUid := uid + 1);
        var r := LinkRows(st1, ext, form, user, role, faults);
        AddsOnlyAtTransitive(st, st1, r.store, uid);
        r
  }

  /** The rows linked to a stored user: the credential decoded from the form
      (its insert failure is returned), the role (its insert failure is
      overwritten by the next insert's result) and the activity row (its
      insert failure is returned, with the earlier rows kept). */
  function LinkRows(st: Store, ext: Externals, form: Form.Values, user: User, role: int, faults: set<Call>)
    : (r: Reply<Msg>)
    ensures r.err != Some(EmailRegistered) && r.err != Some(UsernameTaken)
    ensures r.store.users == st.users && r.store.nextUid == st.nextUid
    ensures AddsOnlyAt(st, r.store, user.uid)
    // a failed credential decode or insert is returned and writes nothing
    ensures ext.decodeLogin(form).Failure? ==>
              var text := ext.decodeLogin(form).error;
              r == Reply(DecodeDetail(text), Some(Decode(text)), st)
    ensures ext.decodeLogin(form).Success? && (InsertLogin in faults || user.uid in st.logins) ==>
              r == Reply(ServerError, Some(Storage), st)
    // once the credential is stored, each later insert lands unless it fails,
    // and only the activity insert's failure is reported
    ensures ext.decodeLogin(form).Success? && InsertLogin !in faults && user.uid !in st.logins ==>
              && r.value == NoMsg
              && r.store.logins == st.logins[user.uid := ext.decodeLogin(form).value.(uid := user.uid)]
              && r.store.roles == (if InsertRole in faults || user.uid in st.roles then st.roles
                                   else st.roles[user.uid := role])
              && r.store.actives == (if InsertActive in faults || user.uid in st.actives then st.actives
                                     else st.actives[user.uid := InitialActive(user)])
              && (r.err.None? <==> InsertActive !in faults && user.uid !in st.actives)
              && (r.err.Some? ==> r.err == Some(Storage))
  {
    var uid := user.uid;
    match ext.decodeLogin(form)
    case Failure(text) => Reply(DecodeDetail(text), Some(Decode(text)), st)
    case Success(decodedLogin) =>
      match Insert(st.logins, uid, decodedLogin.(uid := uid), InsertLogin in faults)
      case None => Reply(ServerError, Some(Storage), st)
      case Some(logins) =>
        var roles := Insert(st.roles, uid, role, InsertRole in faults);
        var actives := Insert(st.actives, uid, InitialActive(user), InsertActive in faults);
        Reply(NoMsg,
              if actives.None? then Some(Storage) else None,
              st.(logins := logins, roles := roles.GetOr(st.roles), actives := actives.GetOr(st.actives)))
  }

  // ---------------------------------------------------------------------------
  // Profile and avatar

  /** Any "open" value other than "1" becomes "0"; no other field changes. */
  function NormalizeOpen(form: Form.Values): (r: Form.Values)
    ensures Form.Get(r, "open") == (if Form.Get(form, "open") == "1" then "1" else "0")
    ensures r - {"open"} == form - {"open"}
    ensures Form.Get(form, "open") != "1" ==> "open" in r && r["open"] == ["0"]
    ensures Form.Get(form, "open") == "1" ==> r == form
  {
    if Form.Get(form, "open") != "1" then Form.Set(form, "open", "0") else form
  }

  /** Writes the nine whitelisted profile columns of user `uid` from the
      decoded, normalised form. The +1 weight bonus runs detached from the
      reply and is the separate step `IncrUserWeight`. */
  function Update(st: Store, ext: Externals, uid: int, form: Form.Values, faults: set<Call>): (r: Reply<Msg>)
    ensures r.err.Some? ==> r.store == st
    ensures r.err.None? <==> ext.decodeUser(NormalizeOpen(form)).Success? && WriteUser !in faults
    ensures r.store.(users := st.users) == st
    ensures r.store.users.Keys == st.users.Keys
    ensures forall k :: k in st.users && k != uid ==> r.store.users[k] == st.users[k]
    ensures uid in st.users ==> r.store.users[uid].(profile := st.users[uid].profile) == st.users[uid]
    ensures r.err.None? && uid in st.users ==>
              r.store.users[uid].profile == ext.decodeUser(NormalizeOpen(form)).value.profile
    ensures r.err.None? ==> r.value == NoMsg
    ensures ext.decodeUser(NormalizeOpen(form)).Failure? ==>
              r == Reply(ServiceError, Some(Decode(ext.decodeUser(NormalizeOpen(form)).error)), st)
    ensures ext.decodeUser(NormalizeOpen(form)).Success? && WriteUser in faults ==>
              r == Reply(TryLater, Some(Storage), st)
  {
    match ext.decodeUser(NormalizeOpen(form))
    case Failure(text) => Reply(ServiceError, Some(Decode(text)), st)
    case Success(decoded) =>
      if WriteUser in faults then Reply(TryLater, Some(Storage), st)
      else Reply(NoMsg, None, st.(users := UpdateId(st.users, uid, (u: User) => u.(profile := decoded.profile))))
  }

  /** Sets the avatar of user `uid`, then of its activity row; the second write
      is attempted only after the first succeeded, and its failure is returned
      although the first write stays. */
  function ChangeAvatar(st: Store, uid: int, avatar: string, faults: set<Call>): (r: Reply<()>)
    ensures WriteUser in faults ==> r.err == Some(Storage) && r.store == st
    ensures r.store.actives != st.actives ==> WriteUser !in faults
    ensures r.err.None? <==> WriteUser !in faults && WriteActive !in faults
    ensures r.store.logins == st.logins && r.store.roles == st.roles && r.store.nextUid == st.nextUid
    ensures r.store.users.Keys == st.users.Keys && r.store.actives.Keys == st.actives.Keys
    ensures forall k :: k in st.users && k != uid ==> r.store.users[k] == st.users[k]
    ensures forall k :: k in st.actives && k != uid ==> r.store.actives[k] == st.actives[k]
    ensures uid in st.users ==> r.store.users[uid].(avatar := st.users[uid].avatar) == st.users[uid]
    ensures uid in st.actives ==> r.store.actives[uid].(avatar := st.actives[uid].avatar) == st.actives[uid]
    ensures WriteUser !in faults && uid in st.users ==> r.store.users[uid].avatar == avatar
    ensures r.err.None? && uid in st.actives ==> r.store.actives[uid].avatar == avatar
    ensures WriteUser !in faults && WriteActive in faults ==>
              r.err == Some(Storage) && r.store.actives == st.actives
  {
    if WriteUser in faults then Reply((), Some(Storage), st)
    else
      var st1 := st.(users := UpdateId(st.users, uid, (u: User) => u.(avatar := avatar)));
      if WriteActive in faults then Reply((), Some(Storage), st1)
      else Reply((), None, st1.(actives := UpdateId(st1.actives, uid, (a: UserActive) => a.(avatar := avatar))))
  }

  // ---------------------------------------------------------------------------
  // Login

  /** The error Login maps a non-Audit status to; a status with no entry gives none. */
  function StatusError(status: int): (e: Option<Error>)
    ensures e.Some? <==> status in {UserStatusNoAudit, UserStatusRefuse, UserStatusFreeze, UserStatusOutage}
    ensures e.Some? ==> e.value !in {ErrUsername, ErrPasswd, LoginUnavailable}
  {
    if status == UserStatusNoAudit then Some(NotActivated)
    else if status == UserStatusRefuse then Some(Refused)
    else if status == UserStatusFreeze then Some(Frozen)
    else if status == UserStatusOutage then Some(Suspended)
    else None
  }

  /** The credential filter of Login's lookup, as a value. */
  function IdentifiedBy(ident: string): (p: UserLogin -> bool) {
    (l: UserLogin) => Identifies(ident, l)
  }

  /** The uid of the credential row Login reads for an identifier. */
  function LoginKey(st: Store, ident: string): (k: Option<int>) {
    FirstKey(st.logins, IdentifiedBy(ident))
  }

  /** The credential row Login reads for an identifier: the zero row when none matches. */
  function LookupLogin(st: Store, ident: string): (l: UserLogin) {
    match LoginKey(st, ident)
    case None => ZeroLogin
    case Some(k) => st.logins[k]
  }

  /** The status Login reads for `uid`. The read's error is ignored, so a
      failed read, like a missing row, leaves the zero status. */
  function LoadedStatus(st: Store, uid: int, loadFails: bool): (status: int) {
    if loadFails || uid !in st.users then ZeroUser.status else st.users[uid].status
  }

  /** Looks up the credential by username or email, gates on the account
      status, then compares the salted hash. The +1 weight bonus and the
      login-time record run detached from the reply and are not part of it. */
  function Login(st: Store, ext: Externals, username: string, passwd: string, faults: set<Call>)
    : (r: Reply<Option<UserLogin>>)
    ensures r.store == st
    ensures r.value.Some? ==> r.err.None?
    ensures r.err == Some(LoginUnavailable) <==> QueryLogin in faults
    ensures QueryLogin !in faults && (forall k :: k in st.logins ==> !Identifies(username, st.logins[k])) ==>
              r.err == Some(ErrUsername)
    ensures r.value.Some? ==>
              var l := r.value.value;
              && l in st.logins.Values
              && Identifies(username, l)
              && l.uid != 0
              && l.uid in st.users
              && st.users[l.uid].status == UserStatusAudit
              && ext.md5(passwd + l.passcode) == l.passwd
    ensures r.err == Some(ErrPasswd) ==>
              exists l :: l in st.logins.Values && Identifies(username, l) && l.uid in st.users
                && st.users[l.uid].status == UserStatusAudit && ext.md5(passwd + l.passcode) != l.passwd
    ensures var l := LookupLogin(st, username);
            QueryLogin !in faults && l.uid != 0 && LoadedStatus(st, l.uid, LoadUser in faults) == UserStatusAudit ==>
              if ext.md5(passwd + l.passcode) == l.passwd then r.value == Some(l) && r.err.None?
              else r.value.None? && r.err == Some(ErrPasswd)
  {
    if QueryLogin in faults then Reply(None, Some(LoginUnavailable), st)
    else
      var login := LookupLogin(st, username);
      if login.uid == 0 then Reply(None, Some(ErrUsername), st)
      else
        var status := LoadedStatus(st, login.uid, LoadUser in faults);
        if status != UserStatusAudit then Reply(None, StatusError(status), st)
        else if ext.md5(passwd + login.passcode) != login.passwd then Reply(None, Some(ErrPasswd), st)
        else Reply(Some(login), None, st)
  }

  // ---------------------------------------------------------------------------
  // Password change and reset

  /** Rewrites hash and passcode of every credential matching `p`. */
  function SetPasswd(logins: map<int, UserLogin>, p: UserLogin -> bool, hash: string, passcode: string)
    : (r: map<int, UserLogin>)
    ensures r.Keys == logins.Keys
    ensures forall k :: k in logins && p(logins[k]) ==>
              r[k] == logins[k].(passwd := hash, passcode := passcode)
    ensures forall k :: k in logins && !p(logins[k]) ==> r[k] == logins[k]
  {
    UpdateWhere(logins, p, (l: UserLogin) => l.(passwd := hash, passcode := passcode))
  }

  /** Re-authenticates with the current password, then stores the hash of the
      new password under the fresh passcode `salt` on every credential with
      that username. */
  function UpdatePasswd(st: Store, ext: Externals, username: string, curPasswd: string, newPasswd: string,
                        salt: string, faults: set<Call>): (r: Reply<Msg>)
    ensures Login(st, ext, username, curPasswd, faults).err.Some? ==>
              && r.store == st
              && r.value == WrongCurrentPasswd
              && r.err == Login(st, ext, username, curPasswd, faults).err
    ensures r.store != st ==> Login(st, ext, username, curPasswd, faults).err.None?
    ensures r.err.None? <==> Login(st, ext, username, curPasswd, faults).err.None? && WriteLogin !in faults
    ensures r.store.(logins := st.logins) == st
    ensures r.err.Some? ==> r.store == st
    ensures r.err.None? ==>
              && r.store.logins.Keys == st.logins.Keys
              && forall k :: k in st.logins ==>
                   r.store.logins[k] == if st.logins[k].username == username
                                        then st.logins[k].(passwd := ext.genMd5Passwd(newPasswd, salt), passcode := salt)
                                        else st.logins[k]
    ensures r.err.None? ==> r.value == NoMsg
    ensures Login(st, ext, username, curPasswd, faults).err.None? && WriteLogin in faults ==>
              r == Reply(PasswdServiceError, Some(Storage), st)
  {
    var auth := Login(st, ext, username, curPasswd, faults);
    if auth.err.Some? then Reply(WrongCurrentPasswd, auth.err, st)
    else if WriteLogin in faults then Reply(PasswdServiceError, Some(Storage), st)
    else
      var hash := ext.genMd5Passwd(newPasswd, salt);
      Reply(NoMsg, None, st.(logins := SetPasswd(st.logins, (l: UserLogin) => l.username == username, hash, salt)))
  }

  /** Stores the hash of `passwd` under the fresh passcode `salt` on every
      credential with that email; there is no re-authentication. */
  function ResetPasswd(st: Store, ext: Externals, email: string, passwd: string, salt: string,
                       faults: set<Call>): (r: Reply<Msg>)
    ensures r.err.Some? <==> WriteLogin in faults
    ensures r.err.Some? ==> r.store == st && r.value == PasswdServiceError
    ensures r.store.(logins := st.logins) == st
    ensures r.err.None? ==>
              && r.store.logins.Keys == st.logins.Keys
              && forall k :: k in st.logins ==>
                   r.store.logins[k] == if st.logins[k].email == email
                                        then st.logins[k].(passwd := ext.genMd5Passwd(passwd, salt), passcode := salt)
                                        else st.logins[k]
    ensures r.err.Some? ==> r.err == Some(Storage)
    ensures r.err.None? ==> r.value == NoMsg
  {
    if WriteLogin in faults then Reply(PasswdServiceError, Some(Storage), st)
    else
      var hash := ext.genMd5Passwd(passwd, salt);
      Reply(NoMsg, None, st.(logins := SetPasswd(st.logins, (l: UserLogin) => l.email == email, hash, salt)))
  }

  // ---------------------------------------------------------------------------
  // Activation

  /** The user row Activate reads for an email: the zero row when none matches
      or the read failed (the read's error is ignored). */
  function LookupUserByEmail(st: Store, email: string, queryFails: bool): (u: User) {
    if queryFails then ZeroUser else First(st.users, (u: User) => u.email == email).GetOr(ZeroUser)
  }

  /** Checks the activation signature, finds the account by email and writes
      it back with status Audit. */
  function Activate(st: Store, ext: Externals, email: string, uuid: string, timestamp: int, sign: string,
                    faults: set<Call>): (r: Reply<Option<User>>)
    ensures sign != ext.activateSign(email, uuid, timestamp) ==>
              r.err == Some(BadSignature) && r.store == st && r.value.None?
    ensures r.store != st ==> sign == ext.activateSign(email, uuid, timestamp)
    ensures r.value.Some? <==> r.err.None?
    ensures r.store.(users := st.users) == st
    ensures r.store.users.Keys == st.users.Keys
    ensures r.err.None? ==>
              && r.value.value.status == UserStatusAudit
              && r.value.value.email == email
              && r.value.value.uid != 0
              && (forall k :: k in st.users && k != r.value.value.uid ==> r.store.users[k] == st.users[k])
              && (r.value.value.uid in st.users ==> r.store.users[r.value.value.uid] == r.value.value)
    ensures r.err.Some? ==> r.store == st
    ensures && sign == ext.activateSign(email, uuid, timestamp)
            && QueryUser !in faults
            && WriteUser !in faults
            && (exists k :: k in st.users && st.users[k].email == email)
            && (forall k :: k in st.users ==> st.users[k].uid != 0)
            ==> r.err.None?
    ensures sign == ext.activateSign(email, uuid, timestamp) && LookupUserByEmail(st, email, QueryUser in faults).uid == 0 ==>
              r == Reply(None, Some(BadEmail), st)
    ensures sign == ext.activateSign(email, uuid, timestamp) && LookupUserByEmail(st, email, QueryUser in faults).uid != 0
            && WriteUser in faults ==>
              r == Reply(None, Some(Storage), st)
  {
    if sign != ext.activateSign(email, uuid, timestamp) then Reply(None, Some(BadSignature), st)
    else
      var user := LookupUserByEmail(st, email, QueryUser in faults);
      if user.uid == 0 then Reply(None, Some(BadEmail), st)
      else
        var activated := user.(status := UserStatusAudit);
        if WriteUser in faults then Reply(None, Some(Storage), st)
        else Reply(Some(activated), None, st.(users := UpdateId(st.users, user.uid, (_: User) => activated)))
  }

  // ---------------------------------------------------------------------------
  // Activity weight

  /** Adds `weight` to the weight of every activity row matching `where`;
      a failed write is logged and changes nothing. */
  function IncrUserWeight(st: Store, where: ActiveField, weight: int, fails: bool): (r: Store)
    ensures r.(actives := st.actives) == st
    ensures r.actives.Keys == st.actives.Keys
    ensures forall k :: k in st.actives ==>
              && r.actives[k].(weight := st.actives[k].weight) == st.actives[k]
              && r.actives[k].weight == st.actives[k].weight
                   + (if !fails && ActiveMatches(where, st.actives[k]) then weight else 0)
  {
    if fails then st
    else st.(actives := UpdateWhere(st.actives, (a: UserActive) => ActiveMatches(where, a),
                                    (a: UserActive) => a.(weight := a.weight + weight)))
  }
}

=== FILE: wrappers.dfy ===
/** Optional values and outcomes used throughout the model: Go's `(value, error)`
    pairs and nil pointers become `Option` and `Result` values. */
module Wrappers {

  /** A value that may be absent (a nil pointer or a nil error in the source). */
  datatype Option<+T> = None | Some(value: T) {

    /** The wrapped value, or `default` when absent. */
    function GetOr(default: T): (v: T) {
      match this
      case Some(v) => v
      case None => default
    }
  }

  /** The outcome of a step that may fail with an error of type `E`. */
  datatype Result<+T, +E> = Success(value: T) | Failure(error: E)
}
